=== FILE: README.md ===
# neo_config_file in Dafny

A model of the core of the Drupal module `neo_config_file`. The module keeps an uploaded file in three places:

- the public file area `public://neo-file/…`;
- a tracked copy in the configuration area `config://files/…`, which is deployed with the site's configuration;
- a compressed copy in the dedicated cache bin `cache.neo_config_file`.

A config-file record (`neo_config_file.neo_config_file.<id>`) ties the three together. The model covers the following parts of the module.

- **Record ids** (`record_id.dfy`). The id `createFromFile` derives from a file's basename:
  - lower-case it;
  - replace runs of characters outside `[a-z0-9_]` with `_`;
  - collapse runs of `_`;
  - cut ids longer than 238 to a 200-character prefix plus `__` plus 10 hex digits of a SHA-256 digest.
- **PHP string helpers** (`php_strings.dfy`): `strtolower`, `basename` and `str_replace`.
- **The record** (`entity.dfy`):
  - `getConfigUri`, which swaps the public prefix for the config prefix;
  - the snapshot file name behind `hasConfig`;
  - `addDependent` (`dependents.dfy`), the kind → names array kept in sorted order.
- **The cache codec** (`codec.dfy`). The token `toCache` stores is `strtr(base64_encode(addslashes(gzcompress(serialize($bytes)))), '+/=', '-_,')`, and `getCache` inverts it:
  - the alphabet swap, `addslashes`/`stripslashes` and base64 (section 4 of RFC 4648) are concrete;
  - `serialize` and `gzcompress` are opaque parameters that are assumed to invert.
- **The cache bin** (`cache_bin.dfy`): the routine `deleteAll` is a no-op and `purgeAll` really clears.
- **The sync engine** (`sync_engine.dfy`): `getFile`, `validateFile`, `toFile`, `toConfig`, `toCache`, `getCache`, `removeCache`, `preSave` and `preDelete`. Each is a pure transition of an immutable `World`, which holds:
  - the file entities and the disk;
  - the cache bin and the names in the config sync directory;
  - the `syncing` flag and the writability of the config directory;
  - the request time and the parent callbacks invoked.
- **Record storage** (`storage.dfy`): `loadByUri`, `loadByFile`, `loadByFileId` and `createFromFile`.
- **The configuration hooks** (`subscriber.dfy`): `onImport`, `onStorageTransformImport` and `onStorageTransformExport`. Each is a fold of engine steps over the records a config storage names.

Some collaborators are supplied as parameters:

- SHA-256 is a function `string -> HexDigest`;
- `serialize`/`unserialize` and `gzcompress`/`gzuncompress` are the fields of a `Layers` value;
- the sort order of `addDependent` is a total order `le`.

The filesystem, the cache database and entity storage are maps and sequences inside `World`.

## Model

| member | source | states |
|---|---|---|
| PhpStrings.Lower | src/ConfigFileStorage.php:48 | `strtolower` keeps the length and lower-cases exactly the ASCII capitals, position by position |
| PhpStrings.LowerIdempotent | src/ConfigFileStorage.php:48 | lower-casing twice is lower-casing once |
| PhpStrings.Basename | src/ConfigFileStorage.php:46 | `basename` of a URI never contains `/` |
| PhpStrings.BasenameOfPath | src/ConfigFileStorage.php:46 | the basename of `dir/name` is `name` for any slash-free non-empty name |
| PhpStrings.StrReplaceNoMatch | src/Entity/ConfigFile.php:209-211 | `str_replace` leaves a string without the needle unchanged |
| PhpStrings.PrefixSurvivesReplace | src/Entity/ConfigFile.php:209-211 | a prefix that cannot overlap the replacement survives only if it was already there |
| PhpStrings.StrReplaceRemovesAll | src/Entity/ConfigFile.php:209-211 | when the replacement cannot recreate the needle, no occurrence of the needle is left |
| RecordId.ReplaceRuns | src/ConfigFileStorage.php:49 | the `[^a-z0-9_]+` → `_` replacement yields only id characters and never lengthens |
| RecordId.Collapse | src/ConfigFileStorage.php:50 | the `_+` → `_` replacement leaves no two consecutive underscores, keeps the first character, never lengthens |
| RecordId.BaseId | src/ConfigFileStorage.php:47-50 | the collapsed id uses only `[a-z0-9_]` and has no `__` |
| RecordId.DeriveId | src/ConfigFileStorage.php:46-55 | every derived id, hash suffix included, uses only `[a-z0-9_]` and is at most 238 long |
| RecordId.ShortIdKept | src/ConfigFileStorage.php:51 | a collapsed id of at most 238 characters is returned unchanged, without `__` |
| RecordId.LongIdShape | src/ConfigFileStorage.php:51-55 | a longer one becomes its 200-character prefix, `__`, and the first 10 digest characters: 212 characters |
| RecordId.ShortAndLongNeverCollide | src/ConfigFileStorage.php:51-55 | a kept id never equals a hashed one |
| RecordId.SameIdMeansSameBase | src/ConfigFileStorage.php:46-55 | equal ids come from collapsed ids on the same side of 238 characters; kept ones from equal collapsed ids, hashed ones from collapsed ids sharing the 200-character prefix and the 10-character digest prefix |
| RecordId.BaseIdByReference | src/ConfigFileStorage.php:48-50 | the run replacement agrees with the per-character reference "map each non-id character to `_`, then collapse" |
| RecordId.ReplaceRunsFixesIds | src/ConfigFileStorage.php:49 | the run replacement leaves a string of id characters unchanged |
| RecordId.CollapseFixpoint | src/ConfigFileStorage.php:50 | collapsing leaves a string unchanged if and only if it has no `__` |
| RecordId.ShortIdIsStable | src/ConfigFileStorage.php:46-55 | deriving again from a kept id gives the same id |
| RecordId.IdIgnoresCase | src/ConfigFileStorage.php:48 | file names equal up to ASCII case give the same id |
| RecordId.ReportExample | src/ConfigFileStorage.php:46-55 | `report.TXT` gives `report_txt` |
| RecordStorage.Load | src/EventSubscriber/ConfigSubscriber.php:56 | `load($id)` returns a stored record with that id, and `NULL` exactly when no record has it |
| RecordStorage.LoadByUri | src/ConfigFileStorage.php:17-22 | the result is a stored record with that URI, and is `NULL` exactly when no record has it |
| RecordStorage.LoadByUriFirst | src/ConfigFileStorage.php:17-22 | the result is the first record with that URI |
| RecordStorage.LoadByFile | src/ConfigFileStorage.php:27-29 | the lookup by a file is the lookup by the file's URI |
| RecordStorage.LoadByFileId | src/ConfigFileStorage.php:34-40 | `NULL` when no file entity has the id, otherwise the URI lookup of that file |
| RecordStorage.CreateFromFile | src/ConfigFileStorage.php:45-63 | the new record has the file's basename, URI and owner, a valid id, no parent and no dependents |
| RecordStorage.CreateFromUpload | src/ConfigFileStorage.php:45-61 | an upload `public://neo-file/<name>` yields filename `<name>`, the id derived from `<name>`, and config URI `config://files/<name>` |
| RecordStorage.CreatedRecordFoundByFile | src/ConfigFileStorage.php:45-63 | a created record that is stored, when no other stored record has its URI, is found again by its file |
| ConfigFileEntity.PublicToConfigIsExhaustive | src/ConfigFileInterface.php:15-20 | the config prefix cannot recreate the public prefix under `str_replace` |
| ConfigFileEntity.GetConfigUri | src/Entity/ConfigFile.php:209-211 | a config URI never contains `public://neo-file`, and a URI without the public prefix is its own config URI |
| ConfigFileEntity.ConfigUriOfUpload | src/Entity/ConfigFile.php:209-211 | `public://neo-file/<name>` maps to `config://files/<name>` |
| ConfigFileEntity.ConfigUriRoundTrip | src/Entity/ConfigFile.php:209-211 | swapping the prefixes back recovers the upload's URI |
| ConfigFileEntity.SnapshotNameInjective | src/Entity/ConfigFile.php:216-218 | distinct records look for distinct snapshot files |
| ConfigFileEntity.HasConfig | src/Entity/ConfigFile.php:216-218 | `hasConfig` holds exactly when some file of the sync directory reads as the config prefix, the record's id and `.yml` |
| ConfigFileEntity.SnapshotNameParses | src/Entity/ConfigFile.php:216-218 | the snapshot name is the only name that splits into the config prefix, the id and `.yml` |
| ConfigFileEntity.AddDependent | src/Entity/ConfigFile.php:377-391 | only the dependents change; they stay sorted and duplicate-free and gain exactly the pair |
| Dependents.Sort | src/Entity/ConfigFile.php:388 | sorting permutes the list |
| Dependents.SortStrictlySorted | src/Entity/ConfigFile.php:382-388 | sorting a list with distinct keys yields a strictly ascending list |
| Dependents.StrictlySortedUnique | src/Entity/ConfigFile.php:382-388 | two strictly sorted lists with the same elements are equal |
| Dependents.AddDependentKeepsValid | src/Entity/ConfigFile.php:377-391 | kinds stay strictly sorted, every list stays non-empty, duplicate-free and sorted |
| Dependents.AddDependentPairs | src/Entity/ConfigFile.php:377-391 | the recorded (kind, name) pairs gain exactly the new pair |
| Dependents.AddDependentPresent | src/Entity/ConfigFile.php:385 | adding a pair already present changes nothing |
| Dependents.Canonical | src/Entity/ConfigFile.php:377-391 | two valid arrays recording the same pairs are identical |
| Dependents.AddDependentCommutes | src/Entity/ConfigFile.php:377-391 | the order of two additions does not matter |
| Codec.ToUrlSafe | src/Entity/ConfigFile.php:290 | the `strtr` swap keeps the length, turns `+`, `/`, `=` into `-`, `_`, `,` position by position, and changes no other character |
| Codec.FromUrlSafe | src/Entity/ConfigFile.php:305 | the reverse `strtr` keeps the length, turns `-`, `_`, `,` into `+`, `/`, `=` position by position, and changes no other character |
| Codec.SwapRoundTrip | src/Entity/ConfigFile.php:290 | the reverse swap in `getCache` undoes it for text free of `-`, `_`, `,` |
| Codec.SwapLosesUrlSafeInput | src/Entity/ConfigFile.php:305 | on other text it does not: `-` comes back as `+` |
| Codec.AddSlashes | src/Entity/ConfigFile.php:290 | `addslashes` at most doubles the length and leaves no NUL byte |
| Codec.SlashesRoundTrip | src/Entity/ConfigFile.php:290 | `stripslashes` undoes `addslashes` on every byte string |
| Codec.Base64Encode | src/Entity/ConfigFile.php:290 | the encoding has 4 characters per started 3 bytes, all from the base64 alphabet or `=`, and `=` appears only in the last two positions |
| Codec.Base64RoundTrip | src/Entity/ConfigFile.php:290 | decoding an encoding gives back the bytes |
| Codec.Encode | src/Entity/ConfigFile.php:290 | a cache token uses only `A-Za-z0-9-_,` and has a length divisible by 4 |
| Codec.Decode | src/Entity/ConfigFile.php:305 | under inverse layers, `getCache`'s decoding chain returns the value whenever the token is the one `toCache` stores for it |
| Codec.CacheRoundTrip | src/Entity/ConfigFile.php:285-308 | with inverse layers, decoding the token `toCache` stores gives back the value |
| CacheBin.Set | src/Entity/ConfigFile.php:293 | a `set` is read back and touches no other key |
| CacheBin.Delete | src/Entity/ConfigFile.php:320 | a `delete` makes the key a miss and touches no other key |
| CacheBin.DeleteAll | src/Cache/CacheDatabaseBackend.php:15-18 | every `get` after the routine clear answers as before it |
| CacheBin.PurgeAll | src/Cache/CacheDatabaseBackend.php:27-29 | every `get` after a purge is a miss |
| CacheBin.DeleteAllKeepsEntry | src/Cache/CacheDatabaseBackend.php:15-18 | an entry survives the routine clear |
| CacheBin.PurgeAllRemovesEntry | src/Cache/CacheDatabaseBackend.php:27-29 | a purge removes the entry, and a second purge changes nothing |
| SyncEngine.FindFile | src/Entity/ConfigFile.php:174-182 | `getFile` returns a file entity with the record's URI, and `FALSE` exactly when there is none |
| SyncEngine.GetFile | src/Entity/ConfigFile.php:174-182 | `getFile` returns a file entity in storage with the record's URI, and `FALSE` exactly when no entity has that URI |
| SyncEngine.ValidateFile | src/Entity/ConfigFile.php:190-204 | only the disk changes, no present bytes are overwritten, and the file's bytes are written — the decoded cache value — exactly when they were missing and the cache value is truthy |
| SyncEngine.ToFile | src/Entity/ConfigFile.php:223-249 | with a file entity: `FALSE` and only `validateFile`; otherwise a permanent entity carrying the record's filename, owner and URI is created exactly when the copy from the config URI succeeds, and a failed copy changes nothing |
| SyncEngine.ToFileNeverOverwrites | src/Entity/ConfigFile.php:223-230 | a present public file is left as it is |
| SyncEngine.ToFileThenGetFile | src/Entity/ConfigFile.php:223-249 | after a successful `toFile`, `getFile` finds the created entity and its bytes are the tracked copy's |
| SyncEngine.ToConfig | src/Entity/ConfigFile.php:254-280 | without a file entity nothing changes and `FALSE` is returned; a success returns the config URI; only the disk, the file entities and the cache change, the disk only gains the record's URI and config URI, and the cache only loses entries |
| SyncEngine.ToConfigSuccess | src/Entity/ConfigFile.php:254-280 | after a success the config URI holds the public file's bytes, the record's cache entry is gone and its file is permanent |
| SyncEngine.ToConfigFailure | src/Entity/ConfigFile.php:254-280 | `FALSE` is returned exactly when there is no file entity or the copy raises |
| SyncEngine.ToCache | src/Entity/ConfigFile.php:285-295 | `TRUE` exactly when there is a file entity, and then only the record's cache entry is set; otherwise nothing changes |
| SyncEngine.GetCache | src/Entity/ConfigFile.php:300-308 | a cache miss yields `FALSE` |
| SyncEngine.GetCacheAfterToCache | src/Entity/ConfigFile.php:285-308 | after `toCache`, `getCache` returns the file's bytes |
| SyncEngine.GetCacheAfterToCacheOfMissingBytes | src/Entity/ConfigFile.php:285-308 | when the file's bytes are missing, `getCache` afterwards returns `FALSE` |
| SyncEngine.RemoveCache | src/Entity/ConfigFile.php:313-322 | `TRUE` exactly when there is a file entity, and then only the record's entry is removed; otherwise nothing changes |
| SyncEngine.PreSave | src/Entity/ConfigFile.php:112-134 | the save fails exactly when there was no file entity and `toFile` failed; otherwise `changed` is the file's changed time; an observing parent is notified once |
| SyncEngine.PreSaveRefreshesCache | src/Entity/ConfigFile.php:112-134 | with a file entity the cache is refreshed to the file's bytes, whatever the syncing flag |
| SyncEngine.PreSaveCreatesFile | src/Entity/ConfigFile.php:112-134 | without one, the tracked copy becomes the public file, the cache is untouched and `changed` is the request time |
| SyncEngine.DeleteFile | src/Entity/ConfigFile.php:164-166 | the file is marked before deletion, no entity with its id remains, and its physical file is gone while every other path keeps its bytes |
| SyncEngine.PurgeCopies | src/Entity/ConfigFile.php:145-152 | the tracked copy is gone afterwards and nothing else leaves the disk; the cache entry is dropped exactly when the record has a file entity |
| SyncEngine.DeleteRecordFile | src/Entity/ConfigFile.php:164-167 | without the record's marker, its file entity is logged as marked, no entity with its id remains and the public file is gone; otherwise nothing changes |
| SyncEngine.PreDeleteOne | src/Entity/ConfigFile.php:143-168 | deleting a record never adds bytes, cache entries or file entities, and an observing parent receives exactly one delete notice |
| SyncEngine.PreDeleteOneCopies | src/Entity/ConfigFile.php:144-166 | the tracked copy, and the cache entry when there is a file entity, are removed exactly when syncing or no snapshot exists; otherwise the cache is untouched; no path but these and the public file loses its bytes |
| SyncEngine.PreDeleteOneFile | src/Entity/ConfigFile.php:160-167 | the file entity is marked and deleted, and the public file removed, exactly when the record carries no delete marker |
| SyncEngine.PreDelete | src/Entity/ConfigFile.php:139-169 | deleting records only removes bytes and cache entries |
| SyncEngine.PreDeletePurges | src/Entity/ConfigFile.php:142-152 | every record deleted while an import runs, or without a config snapshot, has no tracked copy once the loop ends |
| SyncEngine.PreDeleteNotices | src/Entity/ConfigFile.php:142-158 | observing parents are told of the deletions once each, in the order of the records |
| SyncEngine.PreDeleteKeepsExported | src/Entity/ConfigFile.php:139-169 | outside an import, deleting records that all have snapshots keeps every cache entry and removes from disk nothing but the records' public files |
| SyncEngine.PreDeleteKeepsConfigCopies | src/Entity/ConfigFile.php:160-166 | outside an import, the tracked copies of deleted uploads with snapshots keep their bytes, so the files can be recreated by an import |
| ConfigSubscriber.ListAll | src/EventSubscriber/ConfigSubscriber.php:85 | exactly the names with the prefix are listed |
| ConfigSubscriber.StripPrefix | src/EventSubscriber/ConfigSubscriber.php:92 | prefix plus record id is the config name |
| ConfigSubscriber.ListedIds | src/EventSubscriber/ConfigSubscriber.php:84-92 | the ids are exactly those whose prefixed name the storage holds |
| ConfigSubscriber.OnImport | src/EventSubscriber/ConfigSubscriber.php:37-39 | after an import every cache `get` misses and nothing else changes |
| ConfigSubscriber.OnStorageTransformImport | src/EventSubscriber/ConfigSubscriber.php:47-63 | only the disk changes: nothing present is overwritten and every new path is some file entity's URI |
| ConfigSubscriber.ImportRestoresFiles | src/EventSubscriber/ConfigSubscriber.php:55-61 | every named record whose file entity exists and whose bytes are on disk or in a truthy cache entry ends with its public file on disk |
| ConfigSubscriber.ImportAsWritten | src/EventSubscriber/ConfigSubscriber.php:55-61 | as written, the hook changes nothing and stops on an error exactly when a named id loads no record or a named record has a file entity |
| ConfigSubscriber.ImportAsWrittenNeverRestores | src/EventSubscriber/ConfigSubscriber.php:58-59 | a record with a missing file and a truthy cache entry makes the hook as written stop without the file, while the intended hook restores it |
| ConfigSubscriber.ClearConfigArea | src/EventSubscriber/ConfigSubscriber.php:80-82 | the recursive delete removes everything under `config://files` and nothing else |
| ConfigSubscriber.OnStorageTransformExport | src/EventSubscriber/ConfigSubscriber.php:71-98 | an unwritable config directory changes nothing; otherwise the cache is emptied and every path left in the config area was written for a named record |
| ConfigSubscriber.ExportConfigAreaIsListed | src/EventSubscriber/ConfigSubscriber.php:80-96 | every tracked copy after a writable export belongs to a record the storage names |
| ConfigSubscriber.ExportCopiesListed | src/EventSubscriber/ConfigSubscriber.php:84-96 | every named record with a file entity, bytes outside the config area and a writable, distinct config URI ends with a tracked copy holding its public bytes, unless another named record writes to the same place |
| ConfigSubscriber.ExportKeepsOtherFiles | src/EventSubscriber/ConfigSubscriber.php:71-98 | paths outside the config area are never removed by an export |

## Findings

| source | as written | input that shows it | evidently intended | confidence | as-written member | corrected member |
|---|---|---|---|---|---|---|
| src/EventSubscriber/ConfigSubscriber.php:58-59 | the subscriber calls `validateFile`, which is `protected` on the record (src/Entity/ConfigFile.php:190), so PHP raises an error | any named record that has a file entity, e.g. one whose public file was lost and whose bytes are in the cache | restore the public file from the cache copy | high, not executed | ConfigSubscriber.ImportAsWritten | ConfigSubscriber.OnStorageTransformImport |
| src/EventSubscriber/ConfigSubscriber.php:56-58 | `load` returns `NULL` for an id that is not yet stored, and `getFile()` is then called on `NULL` | a sync directory that names a record the site does not have yet | skip names without a stored record | medium, not executed | ConfigSubscriber.ImportAsWritten | ConfigSubscriber.OnStorageTransformImport |

## Left out

- `gzcompress`/`gzuncompress` and `serialize`/`unserialize` are opaque `Layers` fields. The round trip assumes they invert each other.
- SHA-256 is an opaque parameter.
- PHP's lenient `base64_decode` is not modelled. It skips characters outside the alphabet, and `Base64Decode` rejects them instead. This only matters for tokens `toCache` did not write.
- Codec.Decode: `base64_decode` without its strict flag never fails, but when `gzuncompress` returns `FALSE`, `unserialize` receives a boolean, and under `strict_types` (src/Entity/ConfigFile.php:3) PHP raises a TypeError that aborts `getCache` and every caller: `validateFile`, `toFile`, `toConfig` and the export hook. (`preSave` never reaches `getCache`: it calls `toFile` only without a file entity, and `toCache` does not decode.) The model yields `FALSE` there instead, so `validateFile` restores nothing and the callers carry on. The model's strict `Base64Decode` also yields `FALSE` on a token PHP would decode leniently and pass on to `gzuncompress`.
- The loose `==` comparison of `in_array` and PHP's numeric-string array keys are not modelled. Names and kinds are compared as strings, under the supplied total order.
- Dependents.Sort: no particular comparison is fixed. `sort(…, SORT_FLAG_CASE)` without `SORT_STRING` is a regular comparison, so the order is a parameter and no case-insensitivity is claimed.
- `prepareDirectory` and `saveData` are assumed to succeed. A failed write in `validateFile` is not modelled.
- `File::save()` side effects, such as updating the changed time of an existing file, are not modelled. New files are stamped with the request time.
- SyncEngine.DeleteFile: the host's file deletion removes the physical file, and the model does so. The host logs and ignores a failure of that removal, which the model does not model. The cascade from the file deletion back to the record via `neoConfigFileDelete` is not modelled either; the model only logs the marked entity.
- SyncEngine.Copy stands for the host's `FileSystem::copy` with `FileExists::Replace`. It is an assumption about the host, not a property of this module. It raises exactly when the source is missing, the source is the destination, or the destination is in `faults`, and otherwise writes the source bytes to the destination.
- SyncEngine.PurgeCopies: `FileSystem::delete` of the tracked copy (src/Entity/ConfigFile.php:150) can raise a `FileException`, which aborts `preDelete`. The model's removal always succeeds.
- ConfigSubscriber.ClearConfigArea: the source deletes only when `is_dir(CONFIG_URI)` holds (src/EventSubscriber/ConfigSubscriber.php:80-82). The model's disk has no directories, so a plain file named exactly `config://files` counts as part of the area and is removed. In PHP such a file would stay, and the copies below it would then fail.
- `getParentEntity` loading and translation (src/Entity/ConfigFile.php:337-351) is not modelled. The parent is carried on the record, with a flag for whether it implements the callbacks.
- `calculateDependencies`, the accessors and the setters are not modelled. They delegate to the host or store a field.
- ConfigSubscriber.OnStorageTransformExport skips names with no stored record. As written, the hook would call `toConfig()` on `NULL`.
- ConfigSubscriber.OnStorageTransformImport follows the intended behaviour; `ImportAsWritten` models the code as written (see Findings).
- The form element, the list builder, the stream wrapper, the pre-save event and the cache factory are not part of this model. `config://` is an abstract path prefix.
- Concurrency, the entity cache and database transactions are not modelled.

=== FILE: cache_bin.dfy ===
/** The `cache.neo_config_file` bin (`CacheDatabaseBackend`): a key/value
    store whose routine `deleteAll` is switched off and whose `purgeAll`
    performs the real clear. */
module CacheBin {
  import opened Wrappers

  /** Cache id to stored token. */
  type Bin = map<string, string>

  function Get(bin: Bin, key: string): (r: Option<string>)
    ensures r.Some? <==> key in bin
  {
    if key in bin then Some(bin[key]) else None
  }

  function Set(bin: Bin, key: string, value: string): (r: Bin)
    ensures Get(r, key) == Some(value)
    ensures forall k | k != key :: Get(r, k) == Get(bin, k)
  {
    bin[key := value]
  }

  function Delete(bin: Bin, key: string): (r: Bin)
    ensures Get(r, key) == None
    ensures forall k | k != key :: Get(r, k) == Get(bin, k)
  {
    bin - {key}
  }

  /** The system-wide cache clear: this bin ignores it. */
  function DeleteAll(bin: Bin): (r: Bin)
    ensures forall k :: Get(r, k) == Get(bin, k)
  {
    bin
  }

  /** The explicit, irreversible clear. */
  function PurgeAll(bin: Bin): (r: Bin)
    ensures forall k :: Get(r, k) == None
  {
    map[]
  }

  /** An entry set before a routine cache clear is still there after it. */
  lemma DeleteAllKeepsEntry(bin: Bin, key: string, value: string)
    ensures Get(DeleteAll(Set(bin, key, value)), key) == Some(value)
  {
  }

  /** A purge removes it, and a second purge changes nothing. */
  lemma PurgeAllRemovesEntry(bin: Bin, key: string, value: string)
    ensures Get(PurgeAll(Set(bin, key, value)), key) == None
    ensures PurgeAll(PurgeAll(bin)) == PurgeAll(bin)
  {
  }
}

=== FILE: codec.dfy ===
/** The cache token of a file's contents, built in `ConfigFile::toCache` and
    read back in `ConfigFile::getCache`:
      token = strtr(base64_encode(addslashes(gzcompress(serialize(v), 9))), '+/=', '-_,')
    The alphabet swap, `addslashes` and base64 (section 4 of RFC 4648) are
    modelled exactly; `serialize` and zlib compression are supplied by the
    caller as `Layers` and assumed to be inverted by their counterparts. */
module Codec {
  import opened Wrappers

  type Bytes = seq<bv8>

  /** A PHP value as far as the cache cares: a byte string, or the `FALSE`
      that `file_get_contents` and the decoders return on failure. */
  datatype PhpValue = Str(bytes: Bytes) | False

  /** PHP truthiness of such a value: `""` and `"0"` are falsy. */
  predicate Truthy(v: PhpValue) {
    v.Str? && v.bytes != [] && v.bytes != [48]
  }

  // -----------------------------------------------------------------------
  // strtr($s, '+/=', '-_,') and its reverse.

  predicate IsUrlSafeChar(c: char) {
    c == '-' || c == '_' || c == ','
  }

  predicate IsStandardSpecial(c: char) {
    c == '+' || c == '/' || c == '='
  }

  function SwapChar(c: char): char {
    if c == '+' then '-' else if c == '/' then '_' else if c == '=' then ',' else c
  }

  function UnswapChar(c: char): char {
    if c == '-' then '+' else if c == '_' then '/' else if c == ',' then '=' else c
  }

  function ToUrlSafe(s: string): (r: string)
    ensures |r| == |s|
    ensures forall i | 0 <= i < |r| :: !IsStandardSpecial(r[i])
    ensures forall i | 0 <= i < |s| :: !IsStandardSpecial(s[i]) ==> r[i] == s[i]
    ensures forall i | 0 <= i < |s| ::
      && (s[i] == '+' ==> r[i] == '-')
      && (s[i] == '/' ==> r[i] == '_')
      && (s[i] == '=' ==> r[i] == ',')
  {
    seq(|s|, i requires 0 <= i < |s| => SwapChar(s[i]))
  }

  function FromUrlSafe(s: string): (r: string)
    ensures |r| == |s|
    ensures forall i | 0 <= i < |r| :: !IsUrlSafeChar(r[i])
    ensures forall i | 0 <= i < |s| :: !IsUrlSafeChar(s[i]) ==> r[i] == s[i]
    ensures forall i | 0 <= i < |s| ::
      && (s[i] == '-' ==> r[i] == '+')
      && (s[i] == '_' ==> r[i] == '/')
      && (s[i] == ',' ==> r[i] == '=')
  {
    seq(|s|, i requires 0 <= i < |s| => UnswapChar(s[i]))
  }

  /** The swap is undone exactly on strings that do not already use the
      replacement characters — base64 output never does. */
  lemma SwapRoundTrip(s: string)
    requires forall i | 0 <= i < |s| :: !IsUrlSafeChar(s[i])
    ensures FromUrlSafe(ToUrlSafe(s)) == s
  {
  }

  /** A string already using `-` is not recovered: the swap is not a
      bijection on all strings. */
  lemma SwapLosesUrlSafeInput()
    ensures FromUrlSafe(ToUrlSafe("-")) == "+"
  {
  }

  // -----------------------------------------------------------------------
  // addslashes / stripslashes.

  const Backslash: bv8 := 92
  const AsciiZero: bv8 := 48

  /** The bytes `addslashes` escapes: NUL, `'`, `"` and `\`. */
  predicate NeedsEscape(x: bv8) {
    x == 0 || x == 39 || x == 34 || x == Backslash
  }

  function EscapeByte(x: bv8): (r: Bytes)
    ensures 1 <= |r| <= 2
    ensures 0 !in r
  {
    if x == 0 then [Backslash, AsciiZero]
    else if NeedsEscape(x) then [Backslash, x]
    else [x]
  }

  function AddSlashes(b: Bytes): (r: Bytes)
    ensures |b| <= |r| <= 2 * |b|
    ensures 0 !in r
  {
    if |b| == 0 then [] else EscapeByte(b[0]) + AddSlashes(b[1..])
  }

  /** `stripslashes`: `\` followed by `0` gives NUL, `\` followed by any
      other byte gives that byte, and a trailing lone `\` is dropped. */
  function StripSlashes(b: Bytes): Bytes
    decreases |b|
  {
    if |b| == 0 then []
    else if b[0] == Backslash then
      if |b| == 1 then []
      else (if b[1] == AsciiZero then [0 as bv8] else [b[1]]) + StripSlashes(b[2..])
    else [b[0]] + StripSlashes(b[1..])
  }

  lemma StripEscaped(x: bv8, rest: Bytes)
    ensures StripSlashes(EscapeByte(x) + rest) == [x] + StripSlashes(rest)
  {
    var e := EscapeByte(x) + rest;
    if |EscapeByte(x)| == 2 {
      assert e[2..] == rest;
    } else {
      assert e[1..] == rest;
    }
  }

  lemma {:induction false} SlashesRoundTrip(b: Bytes)
    ensures StripSlashes(AddSlashes(b)) == b
    decreases |b|
  {
    if |b| > 0 {
      StripEscaped(b[0], AddSlashes(b[1..]));
      SlashesRoundTrip(b[1..]);
    }
  }

  // -----------------------------------------------------------------------
  // base64 with the standard alphabet and `=` padding.

  function Digit(x: bv8): (c: char)
    requires x < 64
  {
    if x < 26 then ('A' as int + x as int) as char
    else if x < 52 then ('a' as int + (x as int - 26)) as char
    else if x < 62 then ('0' as int + (x as int - 52)) as char
    else if x == 62 then '+'
    else '/'
  }

  predicate IsBase64Char(c: char) {
    'A' <= c <= 'Z' || 'a' <= c <= 'z' || '0' <= c <= '9' || c == '+' || c == '/'
  }

  function Index(c: char): (x: bv8)
    requires IsBase64Char(c)
    ensures x < 64
  {
    if 'A' <= c <= 'Z' then (c as int - 'A' as int) as bv8
    else if 'a' <= c <= 'z' then (c as int - 'a' as int + 26) as bv8
    else if '0' <= c <= '9' then (c as int - '0' as int + 52) as bv8
    else if c == '+' then 62
    else 63
  }

  lemma DigitIndex(x: bv8)
    requires x < 64
    ensures IsBase64Char(Digit(x)) && Index(Digit(x)) == x
  {
    if x < 26 {
      assert 'A' <= Digit(x) <= 'Z';
    } else if x < 52 {
      assert 'a' <= Digit(x) <= 'z';
    } else if x < 62 {
      assert '0' <= Digit(x) <= '9';
    }
  }

  function EncodeBlock(a: bv8, b: bv8, c: bv8): string {
    [Digit(a >> 2), Digit(((a & 3) << 4) | (b >> 4)), Digit(((b & 15) << 2) | (c >> 6)), Digit(c & 63)]
  }

  function EncodeTail1(a: bv8): string {
    [Digit(a >> 2), Digit((a & 3) << 4), '=', '=']
  }

  function EncodeTail2(a: bv8, b: bv8): string {
    [Digit(a >> 2), Digit(((a & 3) << 4) | (b >> 4)), Digit((b & 15) << 2), '=']
  }

  predicate IsBase64Text(s: string) {
    forall i | 0 <= i < |s| :: IsBase64Char(s[i]) || s[i] == '='
  }

  /** `base64_encode`. */
  function Base64Encode(b: Bytes): (s: string)
    ensures |s| == 4 * ((|b| + 2) / 3)
    ensures IsBase64Text(s)
    ensures forall i | 0 <= i < |s| && s[i] == '=' :: i >= |s| - 2
    decreases |b|
  {
    if |b| == 0 then ""
    else if |b| == 1 then
      TailsArePadded(b[0], 0);
      EncodeTail1(b[0])
    else if |b| == 2 then
      TailsArePadded(b[0], b[1]);
      EncodeTail2(b[0], b[1])
    else
      var block, rest := EncodeBlock(b[0], b[1], b[2]), Base64Encode(b[3..]);
      BlockIsPadFree(b[0], b[1], b[2]);
      PadOnlyAtEnd(block, rest);
      block + rest
  }

  /** The final quanta: two digits, then a digit or padding, then padding. */
  lemma TailsArePadded(a: bv8, b: bv8)
    ensures var t := EncodeTail1(a);
      && IsBase64Text(t) && forall i | 0 <= i < 4 && t[i] == '=' :: i >= 2
    ensures var t := EncodeTail2(a, b);
      && IsBase64Text(t) && forall i | 0 <= i < 4 && t[i] == '=' :: i >= 2
  {
    var t1, t2 := EncodeTail1(a), EncodeTail2(a, b);
    assert IsBase64Char(t1[0]) && IsBase64Char(t1[1]);
    assert IsBase64Char(t2[0]) && IsBase64Char(t2[1]) && IsBase64Char(t2[2]);
  }

  lemma BlockIsPadFree(a: bv8, b: bv8, c: bv8)
    ensures forall i | 0 <= i < 4 :: IsBase64Char(EncodeBlock(a, b, c)[i])
  {
  }

  /** Padding at the end of `y` stays at the end behind a pad-free `x`. */
  lemma PadOnlyAtEnd(x: string, y: string)
    requires forall i | 0 <= i < |x| :: IsBase64Char(x[i])
    requires forall i | 0 <= i < |y| && y[i] == '=' :: i >= |y| - 2
    ensures forall i | 0 <= i < |x + y| && (x + y)[i] == '=' :: i >= |x + y| - 2
  {
    forall i | 0 <= i < |x + y| && (x + y)[i] == '='
      ensures i >= |x + y| - 2
    {
      if i >= |x| {
        assert (x + y)[i] == y[i - |x|];
      }
    }
  }

  function DecodeBlock(q: string): Bytes
    requires |q| == 4 && IsBase64Char(q[0]) && IsBase64Char(q[1]) && IsBase64Char(q[2]) && IsBase64Char(q[3])
  {
    var i0, i1, i2, i3 := Index(q[0]), Index(q[1]), Index(q[2]), Index(q[3]);
    [(i0 << 2) | (i1 >> 4), ((i1 & 15) << 4) | (i2 >> 2), ((i2 & 3) << 6) | i3]
  }

  /** The final quantum, which may carry one or two `=`. */
  function DecodeLast(q: string): Option<Bytes>
    requires |q| == 4
  {
    if !IsBase64Char(q[0]) || !IsBase64Char(q[1]) then None
    else if q[2] == '=' && q[3] == '=' then
      Some([(Index(q[0]) << 2) | (Index(q[1]) >> 4)])
    else if !IsBase64Char(q[2]) then None
    else if q[3] == '=' then
      Some([(Index(q[0]) << 2) | (Index(q[1]) >> 4), ((Index(q[1]) & 15) << 4) | (Index(q[2]) >> 2)])
    else if IsBase64Char(q[3]) then Some(DecodeBlock(q))
    else None
  }

  /** `base64_decode` on well-formed input: a multiple of four characters,
      padding only in the last quantum. */
  function Base64Decode(s: string): Option<Bytes>
    decreases |s|
  {
    if |s| == 0 then Some([])
    else if |s| < 4 then None
    else if |s| == 4 then DecodeLast(s)
    else if !(IsBase64Char(s[0]) && IsBase64Char(s[1]) && IsBase64Char(s[2]) && IsBase64Char(s[3])) then None
    else match Base64Decode(s[4..]) {
      case None => None
      case Some(rest) => Some(DecodeBlock(s[..4]) + rest)
    }
  }

  /** The bit regrouping of a full quantum undoes itself. */
  lemma BlockBits(a: bv8, b: bv8, c: bv8)
    ensures ((a >> 2) << 2) | ((((a & 3) << 4) | (b >> 4)) >> 4) == a
    ensures (((((a & 3) << 4) | (b >> 4)) & 15) << 4) | ((((b & 15) << 2) | (c >> 6)) >> 2) == b
    ensures (((((b & 15) << 2) | (c >> 6)) & 3) << 6) | (c & 63) == c
  {
  }

  /** Decoding four digits reads back their six-bit values. */
  lemma DecodeDigits(i0: bv8, i1: bv8, i2: bv8, i3: bv8)
    requires i0 < 64 && i1 < 64 && i2 < 64 && i3 < 64
    ensures var q := [Digit(i0), Digit(i1), Digit(i2), Digit(i3)];
      IsBase64Char(q[0]) && IsBase64Char(q[1]) && IsBase64Char(q[2]) && IsBase64Char(q[3])
      && DecodeBlock(q) == [(i0 << 2) | (i1 >> 4), ((i1 & 15) << 4) | (i2 >> 2), ((i2 & 3) << 6) | i3]
  {
    DigitIndex(i0);
    DigitIndex(i1);
    DigitIndex(i2);
    DigitIndex(i3);
  }

  lemma BlockRoundTrip(a: bv8, b: bv8, c: bv8)
    ensures var q := EncodeBlock(a, b, c);
      IsBase64Char(q[0]) && IsBase64Char(q[1]) && IsBase64Char(q[2]) && IsBase64Char(q[3])
      && DecodeBlock(q) == [a, b, c]
  {
    DecodeDigits(a >> 2, ((a & 3) << 4) | (b >> 4), ((b & 15) << 2) | (c >> 6), c & 63);
    BlockBits(a, b, c);
  }

  lemma Tail1RoundTrip(a: bv8)
    ensures Base64Decode(EncodeTail1(a)) == Some([a])
  {
    DigitIndex(a >> 2);
    DigitIndex((a & 3) << 4);
    BlockBits(a, 0, 0);
    assert Base64Decode(EncodeTail1(a)) == DecodeLast(EncodeTail1(a));
  }

  /** Decoding the final quantum `xyz=` reads back two bytes. */
  lemma DecodeTail2Digits(i0: bv8, i1: bv8, i2: bv8)
    requires i0 < 64 && i1 < 64 && i2 < 64
    ensures DecodeLast([Digit(i0), Digit(i1), Digit(i2), '='])
      == Some([(i0 << 2) | (i1 >> 4), ((i1 & 15) << 4) | (i2 >> 2)])
  {
    DigitIndex(i0);
    DigitIndex(i1);
    DigitIndex(i2);
  }

  lemma Tail2RoundTrip(a: bv8, b: bv8)
    ensures Base64Decode(EncodeTail2(a, b)) == Some([a, b])
  {
    DecodeTail2Digits(a >> 2, ((a & 3) << 4) | (b >> 4), (b & 15) << 2);
    BlockBits(a, b, 0);
    assert Base64Decode(EncodeTail2(a, b)) == DecodeLast(EncodeTail2(a, b));
  }

  lemma LastBlockRoundTrip(a: bv8, b: bv8, c: bv8)
    ensures Base64Decode(EncodeBlock(a, b, c)) == Some([a, b, c])
  {
    var q := EncodeBlock(a, b, c);
    BlockRoundTrip(a, b, c);
    assert q[2] != '=' && q[3] != '=';
    assert Base64Decode(q) == DecodeLast(q);
  }

  /** A full quantum in front of a non-empty decodable rest. */
  lemma DecodeQuantumThenRest(q: string, t: string)
    requires |q| == 4 && IsBase64Char(q[0]) && IsBase64Char(q[1]) && IsBase64Char(q[2]) && IsBase64Char(q[3])
    requires |t| > 0 && Base64Decode(t).Some?
    ensures Base64Decode(q + t) == Some(DecodeBlock(q) + Base64Decode(t).value)
  {
    var s := q + t;
    assert s[..4] == q && s[4..] == t;
    assert s[0] == q[0] && s[1] == q[1] && s[2] == q[2] && s[3] == q[3];
  }

  /** Decoding a full quantum in front of a decodable rest. */
  lemma BlockThenRest(b: Bytes)
    requires |b| > 3
    requires Base64Decode(Base64Encode(b[3..])) == Some(b[3..])
    ensures Base64Decode(Base64Encode(b)) == Some(b)
  {
    var head := EncodeBlock(b[0], b[1], b[2]);
    var tail := Base64Encode(b[3..]);
    assert Base64Encode(b) == head + tail;
    BlockRoundTrip(b[0], b[1], b[2]);
    DecodeQuantumThenRest(head, tail);
    SplitThree(b);
  }

  lemma SplitThree(b: Bytes)
    requires |b| >= 3
    ensures [b[0], b[1], b[2]] + b[3..] == b
  {
  }

  lemma {:induction false} Base64RoundTrip(b: Bytes)
    ensures Base64Decode(Base64Encode(b)) == Some(b)
    decreases |b|
  {
    if |b| == 1 {
      Tail1RoundTrip(b[0]);
      assert [b[0]] == b;
    } else if |b| == 2 {
      Tail2RoundTrip(b[0], b[1]);
      assert [b[0], b[1]] == b;
    } else if |b| == 3 {
      LastBlockRoundTrip(b[0], b[1], b[2]);
      assert Base64Encode(b) == EncodeBlock(b[0], b[1], b[2]) by {
        assert Base64Encode(b[3..]) == "";
      }
      assert [b[0], b[1], b[2]] == b;
    } else if |b| > 3 {
      Base64RoundTrip(b[3..]);
      BlockThenRest(b);
    }
  }

  // -----------------------------------------------------------------------
  // The opaque layers and the full token.

  /** `serialize`/`unserialize` and `gzcompress(·, 9)`/`gzuncompress`, which
      the model does not look inside. `uncompress` answers `None` where
      `gzuncompress` answers `FALSE`; `unserialize` answers `False` on junk. */
  datatype Layers = Layers(
    serialize: PhpValue -> Bytes,
    unserialize: Bytes -> PhpValue,
    compress: Bytes -> Bytes,
    uncompress: Bytes -> Option<Bytes>)

  /** The assumption made about the opaque layers: each is undone by its
      counterpart. */
  ghost predicate Lawful(l: Layers) {
    && (forall v :: l.unserialize(l.serialize(v)) == v)
    && (forall z :: l.uncompress(l.compress(z)) == Some(z))
  }

  predicate IsTokenChar(c: char) {
    'A' <= c <= 'Z' || 'a' <= c <= 'z' || '0' <= c <= '9' || IsUrlSafeChar(c)
  }

  /** The token `toCache` stores for `v`. */
  function Encode(l: Layers, v: PhpValue): (token: string)
    ensures forall i | 0 <= i < |token| :: IsTokenChar(token[i])
    ensures |token| % 4 == 0
  {
    ToUrlSafe(Base64Encode(AddSlashes(l.compress(l.serialize(v)))))
  }

  /** What `getCache` makes of a stored token; `False` when any layer
      fails. Under lawful layers it inverts `Encode`, for every value
      including the empty string. */
  function Decode(l: Layers, token: string): (v: PhpValue)
    ensures forall u | Lawful(l) && token == Encode(l, u) :: v == u
  {
    TokenLayersInvert(l);
    match Base64Decode(FromUrlSafe(token))
    case None => False
    case Some(escaped) =>
      match l.uncompress(StripSlashes(escaped))
      case None => False
      case Some(serialized) => l.unserialize(serialized)
  }

  /** The string layers of a token undo each other for every value. */
  lemma TokenLayersInvert(l: Layers)
    ensures forall u :: Base64Decode(FromUrlSafe(Encode(l, u))) == Some(AddSlashes(l.compress(l.serialize(u))))
    ensures forall z :: StripSlashes(AddSlashes(z)) == z
  {
    forall u
      ensures Base64Decode(FromUrlSafe(Encode(l, u))) == Some(AddSlashes(l.compress(l.serialize(u))))
    {
      var z := l.compress(l.serialize(u));
      SwapRoundTrip(Base64Encode(AddSlashes(z)));
      Base64RoundTrip(AddSlashes(z));
    }
    forall z
      ensures StripSlashes(AddSlashes(z)) == z
    {
      SlashesRoundTrip(z);
    }
  }

  /** Reading a token back gives the stored value. */
  lemma CacheRoundTrip(l: Layers, v: PhpValue)
    requires Lawful(l)
    ensures Decode(l, Encode(l, v)) == v
  {
  }
}

=== FILE: dependents.dfy ===
/** The `dependents` array of a config-file record and
    `ConfigFile::addDependent`: dependency kind to a list of names, kinds
    kept sorted, names unique and re-sorted after every append.

    PHP compares with its regular comparison here (`SORT_FLAG_CASE` is
    passed without `SORT_STRING`), so the order is a parameter `le`, assumed
    to be a total order on strings. */
module Dependents {

  datatype Entry = Entry(kind: string, names: seq<string>)

  /** A PHP array from kind to names, in array order. */
  type Deps = seq<Entry>

  ghost predicate TotalOrder(le: (string, string) -> bool) {
    && (forall a :: le(a, a))
    && (forall a, b :: le(a, b) && le(b, a) ==> a == b)
    && (forall a, b, c :: le(a, b) && le(b, c) ==> le(a, c))
    && (forall a, b :: le(a, b) || le(b, a))
  }

  function KindOf(e: Entry): string {
    e.kind
  }

  function NameOf(n: string): string {
    n
  }

  /** Sorted by `key` with no key repeated. */
  ghost predicate StrictlySorted<T>(s: seq<T>, key: T -> string, le: (string, string) -> bool) {
    forall i, j | 0 <= i < j < |s| :: le(key(s[i]), key(s[j])) && key(s[i]) != key(s[j])
  }

  // -----------------------------------------------------------------------
  // PHP's `sort` and `ksort`, as insertion sort on the chosen key.

  function Insert<T>(x: T, s: seq<T>, key: T -> string, le: (string, string) -> bool): (r: seq<T>)
    ensures multiset(r) == multiset(s) + multiset{x}
  {
    if |s| == 0 then [x]
    else if le(key(x), key(s[0])) then [x] + s
    else
      assert s == [s[0]] + s[1..];
      [s[0]] + Insert(x, s[1..], key, le)
  }

  function Sort<T>(s: seq<T>, key: T -> string, le: (string, string) -> bool): (r: seq<T>)
    ensures multiset(r) == multiset(s)
  {
    if |s| == 0 then []
    else
      assert s == [s[0]] + s[1..];
      Insert(s[0], Sort(s[1..], key, le), key, le)
  }

  /** Putting `x` in front of a strictly sorted list it precedes. */
  lemma InsertAtFront<T>(x: T, s: seq<T>, key: T -> string, le: (string, string) -> bool)
    requires TotalOrder(le)
    requires StrictlySorted(s, key, le)
    requires forall y | y in s :: key(y) != key(x)
    requires |s| > 0 && le(key(x), key(s[0]))
    ensures StrictlySorted([x] + s, key, le)
  {
    var r := [x] + s;
    forall i, j | 0 <= i < j < |r|
      ensures le(key(r[i]), key(r[j])) && key(r[i]) != key(r[j])
    {
      if i == 0 {
        assert r[j] == s[j - 1] && r[j] in s;
        if j > 1 {
          assert le(key(s[0]), key(s[j - 1]));
        }
      } else {
        assert r[i] == s[i - 1] && r[j] == s[j - 1];
      }
    }
  }

  /** Keeping the head of `s` in front of the insertion into its tail. */
  lemma InsertBehindHead<T>(x: T, s: seq<T>, key: T -> string, le: (string, string) -> bool)
    requires TotalOrder(le)
    requires StrictlySorted(s, key, le)
    requires forall y | y in s :: key(y) != key(x)
    requires |s| > 0 && !le(key(x), key(s[0]))
    requires StrictlySorted(Insert(x, s[1..], key, le), key, le)
    ensures StrictlySorted([s[0]] + Insert(x, s[1..], key, le), key, le)
  {
    var t := Insert(x, s[1..], key, le);
    var r := [s[0]] + t;
    forall i, j | 0 <= i < j < |r|
      ensures le(key(r[i]), key(r[j])) && key(r[i]) != key(r[j])
    {
      if i == 0 {
        assert r[j] == t[j - 1];
        assert t[j - 1] in multiset(t);
        if t[j - 1] != x {
          assert t[j - 1] in s[1..];
          var k :| 0 <= k < |s[1..]| && s[1..][k] == t[j - 1];
          assert s[k + 1] == t[j - 1];
        }
      } else {
        assert r[i] == t[i - 1] && r[j] == t[j - 1];
      }
    }
  }

  lemma {:induction false} InsertStrictlySorted<T>(x: T, s: seq<T>, key: T -> string, le: (string, string) -> bool)
    requires TotalOrder(le)
    requires StrictlySorted(s, key, le)
    requires forall y | y in s :: key(y) != key(x)
    ensures StrictlySorted(Insert(x, s, key, le), key, le)
    decreases |s|
  {
    if |s| > 0 {
      if le(key(x), key(s[0])) {
        InsertAtFront(x, s, key, le);
      } else {
        assert StrictlySorted(s[1..], key, le);
        InsertStrictlySorted(x, s[1..], key, le);
        InsertBehindHead(x, s, key, le);
      }
    }
  }

  /** Sorting a list without repeated keys yields a strictly sorted
      permutation of it. */
  lemma {:induction false} SortStrictlySorted<T>(s: seq<T>, key: T -> string, le: (string, string) -> bool)
    requires TotalOrder(le)
    requires forall i, j | 0 <= i < j < |s| :: key(s[i]) != key(s[j])
    ensures StrictlySorted(Sort(s, key, le), key, le)
    ensures multiset(Sort(s, key, le)) == multiset(s)
    decreases |s|
  {
    if |s| > 0 {
      var t := Sort(s[1..], key, le);
      SortStrictlySorted(s[1..], key, le);
      forall y | y in t
        ensures key(y) != key(s[0])
      {
        assert y in multiset(s[1..]);
        var k :| 0 <= k < |s[1..]| && s[1..][k] == y;
        assert s[k + 1] == y;
      }
      InsertStrictlySorted(s[0], t, key, le);
    }
  }

  lemma ElementIn<T>(s: seq<T>, i: int)
    requires 0 <= i < |s|
    ensures s[i] in s
  {
  }

  /** A strictly sorted list is determined by its elements. */
  lemma {:induction false} StrictlySortedUnique<T>(a: seq<T>, b: seq<T>, key: T -> string, le: (string, string) -> bool)
    requires TotalOrder(le)
    requires StrictlySorted(a, key, le) && StrictlySorted(b, key, le)
    requires forall x :: x in a <==> x in b
    ensures a == b
    decreases |a|
  {
    if |a| == 0 {
      if |b| > 0 {
        ElementIn(b, 0);
        assert false;
      }
    } else {
      assert a[0] in b;
      assert |b| > 0;
      assert b[0] in a;
      var ka :| 0 <= ka < |b| && b[ka] == a[0];
      var kb :| 0 <= kb < |a| && a[kb] == b[0];
      if ka != 0 {
        assert false;
      }
      forall x
        ensures x in a[1..] <==> x in b[1..]
      {
        if x in a[1..] {
          var i :| 0 <= i < |a[1..]| && a[1..][i] == x;
          assert a[i + 1] == x && key(x) != key(a[0]);
          assert x in b;
          var j :| 0 <= j < |b| && b[j] == x;
          assert j != 0;
          assert b[1..][j - 1] == x;
        }
        if x in b[1..] {
          var j :| 0 <= j < |b[1..]| && b[1..][j] == x;
          assert b[j + 1] == x && key(x) != key(b[0]);
          assert x in a;
          var i :| 0 <= i < |a| && a[i] == x;
          assert i != 0;
          assert a[1..][i - 1] == x;
        }
      }
      StrictlySortedUnique(a[1..], b[1..], key, le);
      assert a == [a[0]] + a[1..] && b == [b[0]] + b[1..];
    }
  }

  // -----------------------------------------------------------------------
  // The dependents array.

  /** The shape `addDependent` maintains: kinds strictly sorted, every list
      non-empty and strictly sorted. */
  ghost predicate Valid(d: Deps, le: (string, string) -> bool) {
    && StrictlySorted(d, KindOf, le)
    && forall e | e in d :: |e.names| > 0 && StrictlySorted(e.names, NameOf, le)
  }

  /** The (kind, name) pairs the array records. */
  ghost function Pairs(d: Deps): set<(string, string)> {
    set e, n | e in d && n in e.names :: (e.kind, n)
  }

  /** Index of the entry for `kind`, or `|d|` when there is none. */
  function FindKind(d: Deps, kind: string): (i: nat)
    ensures i <= |d|
    ensures i < |d| ==> d[i].kind == kind
    ensures forall j | 0 <= j < i :: d[j].kind != kind
  {
    if |d| == 0 then 0
    else if d[0].kind == kind then 0
    else 1 + FindKind(d[1..], kind)
  }

  /** `addDependent($type, $name)`. */
  function AddDependent(d: Deps, kind: string, name: string, le: (string, string) -> bool): Deps {
    var i := FindKind(d, kind);
    if i == |d| || |d[i].names| == 0 then
      var placed := if i == |d| then d + [Entry(kind, [name])] else d[i := Entry(kind, [name])];
      if |placed| > 1 then Sort(placed, KindOf, le) else placed
    else if name !in d[i].names then
      d[i := Entry(kind, Sort(d[i].names + [name], NameOf, le))]
    else
      d
  }

  lemma ValidEntryForKind(d: Deps, le: (string, string) -> bool, e: Entry)
    requires Valid(d, le) && e in d
    ensures FindKind(d, e.kind) < |d| && d[FindKind(d, e.kind)] == e
  {
    var k :| 0 <= k < |d| && d[k] == e;
    SortedEntryForKind(d, le, k);
  }

  /** With distinct kinds, the entry at `k` is the one found for its kind. */
  lemma SortedEntryForKind(d: Deps, le: (string, string) -> bool, k: nat)
    requires StrictlySorted(d, KindOf, le) && k < |d|
    ensures FindKind(d, d[k].kind) == k
  {
    var i := FindKind(d, d[k].kind);
    if i < k {
      ElementIn(d, i);
      assert false;
    }
  }

  /** Appending a new name keeps the list strictly sorted. */
  lemma AppendedNamesSorted(names: seq<string>, name: string, le: (string, string) -> bool)
    requires TotalOrder(le)
    requires StrictlySorted(names, NameOf, le) && name !in names
    ensures StrictlySorted(Sort(names + [name], NameOf, le), NameOf, le)
    ensures forall n :: n in Sort(names + [name], NameOf, le) <==> n in names || n == name
  {
    var s := names + [name];
    forall i, j | 0 <= i < j < |s|
      ensures NameOf(s[i]) != NameOf(s[j])
    {
      if j == |s| - 1 {
        assert s[i] in names;
      } else {
        assert s[i] == names[i] && s[j] == names[j];
      }
    }
    SortStrictlySorted(s, NameOf, le);
    forall n
      ensures n in Sort(s, NameOf, le) <==> n in names || n == name
    {
      assert n in Sort(s, NameOf, le) <==> n in multiset(s);
    }
  }

  /** Sorting keeps exactly the elements. */
  lemma SortMembers<T>(s: seq<T>, key: T -> string, le: (string, string) -> bool)
    ensures forall e :: e in Sort(s, key, le) <==> e in s
  {
    var r := Sort(s, key, le);
    forall e
      ensures e in r <==> e in s
    {
      assert e in r <==> e in multiset(s);
    }
  }

  /** A kind not yet present, appended, keeps kinds distinct. */
  lemma AppendedKindDistinct(d: Deps, kind: string, name: string)
    requires forall e | e in d :: e.kind != kind
    requires forall i, j | 0 <= i < j < |d| :: KindOf(d[i]) != KindOf(d[j])
    ensures var placed := d + [Entry(kind, [name])];
      forall i, j | 0 <= i < j < |placed| :: KindOf(placed[i]) != KindOf(placed[j])
  {
    var placed := d + [Entry(kind, [name])];
    forall i, j | 0 <= i < j < |placed|
      ensures KindOf(placed[i]) != KindOf(placed[j])
    {
      if j == |placed| - 1 {
        assert placed[i] in d;
      } else {
        assert placed[i] == d[i] && placed[j] == d[j];
      }
    }
  }

  /** Adding a new kind keeps kinds strictly sorted. */
  lemma AppendedKindSorted(d: Deps, kind: string, name: string, le: (string, string) -> bool)
    requires TotalOrder(le) && Valid(d, le)
    requires forall e | e in d :: e.kind != kind
    ensures var placed := d + [Entry(kind, [name])];
      && Valid(Sort(placed, KindOf, le), le)
      && forall e :: e in Sort(placed, KindOf, le) <==> e in placed
  {
    var placed := d + [Entry(kind, [name])];
    AppendedKindDistinct(d, kind, name);
    SortStrictlySorted(placed, KindOf, le);
    SortMembers(placed, KindOf, le);
    var r := Sort(placed, KindOf, le);
    forall e | e in r
      ensures |e.names| > 0 && StrictlySorted(e.names, NameOf, le)
    {
      assert e in placed;
      if e !in d {
        assert e == Entry(kind, [name]);
      }
    }
  }

  /** `addDependent` keeps the invariant. */
  lemma AddDependentKeepsValid(d: Deps, kind: string, name: string, le: (string, string) -> bool)
    requires TotalOrder(le) && Valid(d, le)
    ensures Valid(AddDependent(d, kind, name, le), le)
  {
    var i := FindKind(d, kind);
    if i == |d| {
      AppendedKindSorted(d, kind, name, le);
    } else if name !in d[i].names {
      assert d[i] in d;
      AppendedNamesSorted(d[i].names, name, le);
      var r := AddDependent(d, kind, name, le);
      forall a, b | 0 <= a < b < |r|
        ensures le(KindOf(r[a]), KindOf(r[b])) && KindOf(r[a]) != KindOf(r[b])
      {
        assert KindOf(r[a]) == KindOf(d[a]) && KindOf(r[b]) == KindOf(d[b]);
      }
      forall e | e in r
        ensures |e.names| > 0 && StrictlySorted(e.names, NameOf, le)
      {
        var k :| 0 <= k < |r| && r[k] == e;
        if k != i {
          assert d[k] in d;
        }
      }
    } else {
      assert d[i] in d;
    }
  }

  /** A new kind adds exactly its one pair. */
  lemma PairsOfNewKind(d: Deps, kind: string, name: string, le: (string, string) -> bool)
    requires TotalOrder(le) && Valid(d, le)
    requires FindKind(d, kind) == |d|
    ensures Pairs(AddDependent(d, kind, name, le)) == Pairs(d) + {(kind, name)}
  {
    var placed := d + [Entry(kind, [name])];
    var r := AddDependent(d, kind, name, le);
    if |placed| > 1 {
      SortMembers(placed, KindOf, le);
      assert r == Sort(placed, KindOf, le);
    } else {
      assert r == placed;
    }
    assert forall e :: e in r <==> e in placed;
    assert Pairs(r) == Pairs(placed);
    assert Entry(kind, [name]) in placed;
  }

  /** A new name for a present kind adds exactly its one pair. */
  lemma PairsOfNewName(d: Deps, kind: string, name: string, le: (string, string) -> bool)
    requires TotalOrder(le) && Valid(d, le)
    requires FindKind(d, kind) < |d| && name !in d[FindKind(d, kind)].names
    ensures Pairs(AddDependent(d, kind, name, le)) == Pairs(d) + {(kind, name)}
  {
    var i := FindKind(d, kind);
    assert d[i] in d;
    AppendedNamesSorted(d[i].names, name, le);
    var r := d[i := Entry(kind, Sort(d[i].names + [name], NameOf, le))];
    assert AddDependent(d, kind, name, le) == r;
    forall p | p in Pairs(r)
      ensures p in Pairs(d) + {(kind, name)}
    {
      var e, n :| e in r && n in e.names && p == (e.kind, n);
      var k :| 0 <= k < |r| && r[k] == e;
      if k != i {
        assert d[k] in d;
      } else if n != name {
        assert n in d[i].names;
      }
    }
    forall p | p in Pairs(d) + {(kind, name)}
      ensures p in Pairs(r)
    {
      if p == (kind, name) {
        assert r[i] in r;
      } else {
        var e, n :| e in d && n in e.names && p == (e.kind, n);
        var k :| 0 <= k < |d| && d[k] == e;
        assert r[k] in r;
      }
    }
  }

  /** `addDependent` records exactly the one new pair. */
  lemma AddDependentPairs(d: Deps, kind: string, name: string, le: (string, string) -> bool)
    requires TotalOrder(le) && Valid(d, le)
    ensures Pairs(AddDependent(d, kind, name, le)) == Pairs(d) + {(kind, name)}
  {
    var i := FindKind(d, kind);
    if i == |d| {
      PairsOfNewKind(d, kind, name, le);
    } else if name !in d[i].names {
      PairsOfNewName(d, kind, name, le);
    } else {
      assert d[i] in d;
    }
  }

  /** Adding a pair that is already recorded changes nothing. */
  lemma AddDependentPresent(d: Deps, kind: string, name: string, le: (string, string) -> bool)
    requires TotalOrder(le) && Valid(d, le)
    requires (kind, name) in Pairs(d)
    ensures AddDependent(d, kind, name, le) == d
  {
    var e, n :| e in d && n in e.names && (kind, name) == (e.kind, n);
    ValidEntryForKind(d, le, e);
  }

  /** Two valid arrays recording the same pairs are the same array. */
  lemma Canonical(d1: Deps, d2: Deps, le: (string, string) -> bool)
    requires TotalOrder(le) && Valid(d1, le) && Valid(d2, le)
    requires Pairs(d1) == Pairs(d2)
    ensures d1 == d2
  {
    forall e | e in d1
      ensures e in d2
    {
      EntryDeterminedByPairs(d1, d2, le, e);
    }
    forall e | e in d2
      ensures e in d1
    {
      EntryDeterminedByPairs(d2, d1, le, e);
    }
    StrictlySortedUnique(d1, d2, KindOf, le);
  }

  lemma EntryDeterminedByPairs(d1: Deps, d2: Deps, le: (string, string) -> bool, e: Entry)
    requires TotalOrder(le) && Valid(d1, le) && Valid(d2, le)
    requires Pairs(d1) == Pairs(d2)
    requires e in d1
    ensures e in d2
  {
    assert e.names[0] in e.names;
    assert (e.kind, e.names[0]) in Pairs(d2);
    var e2, n2 :| e2 in d2 && n2 in e2.names && (e.kind, e.names[0]) == (e2.kind, n2);
    forall n
      ensures n in e.names <==> n in e2.names
    {
      if n in e.names {
        assert (e.kind, n) in Pairs(d2);
        var e3, n3 :| e3 in d2 && n3 in e3.names && (e.kind, n) == (e3.kind, n3);
        ValidEntryForKind(d2, le, e2);
        ValidEntryForKind(d2, le, e3);
      }
      if n in e2.names {
        assert (e.kind, n) in Pairs(d1);
        var e3, n3 :| e3 in d1 && n3 in e3.names && (e.kind, n) == (e3.kind, n3);
        ValidEntryForKind(d1, le, e);
        ValidEntryForKind(d1, le, e3);
      }
    }
    StrictlySortedUnique(e.names, e2.names, NameOf, le);
    assert e == e2;
  }

  /** The invariant and the recorded pairs after one addition. */
  lemma AddDependentSpec(d: Deps, kind: string, name: string, le: (string, string) -> bool)
    requires TotalOrder(le) && Valid(d, le)
    ensures Valid(AddDependent(d, kind, name, le), le)
    ensures Pairs(AddDependent(d, kind, name, le)) == Pairs(d) + {(kind, name)}
  {
    AddDependentKeepsValid(d, kind, name, le);
    AddDependentPairs(d, kind, name, le);
  }

  /** Two valid arrays that gained the same two pairs, in either order. */
  lemma SameTwoPairs(d: Deps, a2: Deps, b2: Deps, k1: string, n1: string, k2: string, n2: string, le: (string, string) -> bool)
    requires TotalOrder(le) && Valid(a2, le) && Valid(b2, le)
    requires Pairs(a2) == Pairs(d) + {(k1, n1)} + {(k2, n2)}
    requires Pairs(b2) == Pairs(d) + {(k2, n2)} + {(k1, n1)}
    ensures a2 == b2
  {
    Canonical(a2, b2, le);
  }

  /** The order in which dependents are added does not matter. */
  lemma AddDependentCommutes(d: Deps, k1: string, n1: string, k2: string, n2: string, le: (string, string) -> bool)
    requires TotalOrder(le) && Valid(d, le)
    ensures AddDependent(AddDependent(d, k1, n1, le), k2, n2, le)
         == AddDependent(AddDependent(d, k2, n2, le), k1, n1, le)
  {
    var a := AddDependent(d, k1, n1, le);
    var b := AddDependent(d, k2, n2, le);
    AddDependentSpec(d, k1, n1, le);
    AddDependentSpec(d, k2, n2, le);
    AddDependentSpec(a, k2, n2, le);
    AddDependentSpec(b, k1, n1, le);
    SameTwoPairs(d, AddDependent(a, k2, n2, le), AddDependent(b, k1, n1, le), k1, n1, k2, n2, le);
  }
}

=== FILE: entity.dfy ===
/** The config-file record (`Entity/ConfigFile`) and the file entity it
    tracks, with the record's pure helpers: `getConfigUri`, the snapshot
    name behind `hasConfig`, and `addDependent`. */
module ConfigFileEntity {
  import opened Wrappers
  import opened PhpStrings
  import Dependents

  /** Where uploads are stored (`ConfigFileInterface::PUBLIC_URI`). */
  const PublicUri := "public://neo-file"
  /** Where the tracked copies live (`ConfigFileInterface::CONFIG_URI`). */
  const ConfigUri := "config://files"
  /** Config name prefix of every record (`<module>.<entity type>.`). */
  const ConfigPrefix := "neo_config_file.neo_config_file."

  /** The owning configuration entity; `observes` says whether it
      implements the update/delete callbacks. */
  datatype Parent = Parent(entityType: string, id: string, observes: bool)

  datatype ConfigFile = ConfigFile(
    id: string,
    filename: string,
    uri: string,
    uid: nat,
    parent: Option<Parent>,
    parentField: Option<string>,
    changed: Option<int>,
    dependents: Dependents.Deps,
    /** The one-shot marker set when the record's deletion was triggered by
        the deletion of its file. */
    deleteMarker: bool)

  /** A managed file entity of the host. `permanent` is `status == 1`. */
  datatype FileEntity = FileEntity(
    fid: nat,
    uri: string,
    filename: string,
    uid: nat,
    permanent: bool,
    changed: int,
    deleteMarker: bool)

  /** `getConfigUri()`: the record's URI with the public prefix swapped for
      the config prefix. No occurrence of the public prefix survives, and a
      URI outside the public area is its own config URI. */
  function GetConfigUri(r: ConfigFile): (c: string)
    ensures !Occurs(c, PublicUri)
    ensures !Occurs(r.uri, PublicUri) ==> c == r.uri
  {
    PublicToConfigIsExhaustive();
    StrReplaceRemovesAll(r.uri, PublicUri, ConfigUri);
    var c := StrReplace(r.uri, PublicUri, ConfigUri);
    assert !Occurs(r.uri, PublicUri) ==> c == r.uri by {
      if !Occurs(r.uri, PublicUri) {
        StrReplaceNoMatch(r.uri, PublicUri, ConfigUri);
      }
    }
    c
  }

  /** The config snapshot whose presence `hasConfig()` tests. */
  function SnapshotName(id: string): string {
    ConfigPrefix + id + ".yml"
  }

  /** Whether `n` reads as the snapshot file of `id`: the config prefix,
      then the id, then `.yml`. */
  predicate IsSnapshotOf(n: string, id: string) {
    && |n| == |ConfigPrefix| + |id| + 4
    && n[..|ConfigPrefix|] == ConfigPrefix
    && n[|ConfigPrefix|..|ConfigPrefix| + |id|] == id
    && n[|ConfigPrefix| + |id|..] == ".yml"
  }

  /** The snapshot name is the only name that reads as the id's snapshot. */
  lemma SnapshotNameParses(id: string)
    ensures forall n :: IsSnapshotOf(n, id) <==> n == SnapshotName(id)
  {
    var p := |ConfigPrefix|;
    forall n
      ensures IsSnapshotOf(n, id) <==> n == SnapshotName(id)
    {
      if IsSnapshotOf(n, id) {
        assert n == n[..p] + n[p..p + |id|] + n[p + |id|..];
      }
      if n == SnapshotName(id) {
        assert n[..p] == ConfigPrefix;
        assert n[p..p + |id|] == id;
      }
    }
  }

  /** `hasConfig()`, given the names of the files in the sync directory:
      some file there reads as the record's snapshot. */
  predicate HasConfig(r: ConfigFile, syncDir: set<string>)
    ensures HasConfig(r, syncDir) <==> exists n | n in syncDir :: IsSnapshotOf(n, r.id)
  {
    SnapshotNameParses(r.id);
    SnapshotName(r.id) in syncDir
  }

  /** Distinct records look for distinct snapshot files. */
  lemma SnapshotNameInjective(a: string, b: string)
    requires SnapshotName(a) == SnapshotName(b)
    ensures a == b
  {
    var sa, sb := SnapshotName(a), SnapshotName(b);
    assert |a| == |b|;
    forall i | 0 <= i < |a|
      ensures a[i] == b[i]
    {
      assert sa[|ConfigPrefix| + i] == a[i];
      assert sb[|ConfigPrefix| + i] == b[i];
    }
  }

  lemma PublicToConfigIsExhaustive()
    ensures ReplaceIsExhaustive(PublicUri, ConfigUri)
  {
    forall i | 0 <= i < |ConfigUri|
      ensures Incompatible(ConfigUri[i..], PublicUri)
    {
      assert ConfigUri[i..][0] != PublicUri[0];
    }
    forall j | 1 <= j < |PublicUri|
      ensures Incompatible(PublicUri[j..], ConfigUri)
    {
      if j == 5 {
        assert PublicUri[j..][1] != ConfigUri[1];
      } else {
        assert PublicUri[j..][0] != ConfigUri[0];
      }
    }
  }

  lemma SlashThenNoOccurrence(name: string, needle: string)
    requires |needle| > 0 && needle[0] != '/'
    requires !Occurs(name, needle)
    ensures !Occurs("/" + name, needle)
  {
    var s := "/" + name;
    forall i: nat | i <= |s|
      ensures !OccursAt(s, needle, i)
    {
      if i > 0 && i + |needle| <= |s| {
        assert s[i..i + |needle|] == name[i - 1..i - 1 + |needle|];
        assert !OccursAt(name, needle, i - 1);
      }
    }
  }

  /** Replacing a leading prefix that is followed by `/<name>`. */
  lemma PrefixSwap(needle: string, repl: string, name: string)
    requires |needle| > 0 && needle[0] != '/'
    requires !Occurs(name, needle)
    ensures StrReplace(needle + "/" + name, needle, repl) == repl + "/" + name
  {
    assert needle + "/" + name == needle + ("/" + name);
    assert repl + "/" + name == repl + ("/" + name);
    StrReplaceLeading(needle, "/" + name, repl);
    SlashThenNoOccurrence(name, needle);
    StrReplaceNoMatch("/" + name, needle, repl);
  }

  /** An upload `public://neo-file/<name>` is tracked at
      `config://files/<name>`. */
  lemma ConfigUriOfUpload(r: ConfigFile, name: string)
    requires r.uri == PublicUri + "/" + name
    requires !Occurs(name, PublicUri)
    ensures GetConfigUri(r) == ConfigUri + "/" + name
  {
    PrefixSwap(PublicUri, ConfigUri, name);
  }

  /** Swapping the prefixes back recovers the upload's URI. */
  lemma ConfigUriRoundTrip(r: ConfigFile, name: string)
    requires r.uri == PublicUri + "/" + name
    requires !Occurs(name, PublicUri) && !Occurs(name, ConfigUri)
    ensures StrReplace(GetConfigUri(r), ConfigUri, PublicUri) == r.uri
  {
    ConfigUriOfUpload(r, name);
    PrefixSwap(ConfigUri, PublicUri, name);
  }

  /** `addDependent` on the record: only `dependents` changes. */
  function AddDependent(r: ConfigFile, kind: string, name: string, le: (string, string) -> bool): (r': ConfigFile)
    requires Dependents.TotalOrder(le) && Dependents.Valid(r.dependents, le)
    ensures r' == r.(dependents := r'.dependents)
    ensures Dependents.Valid(r'.dependents, le)
    ensures Dependents.Pairs(r'.dependents) == Dependents.Pairs(r.dependents) + {(kind, name)}
  {
    Dependents.AddDependentKeepsValid(r.dependents, kind, name, le);
    Dependents.AddDependentPairs(r.dependents, kind, name, le);
    r.(dependents := Dependents.AddDependent(r.dependents, kind, name, le))
  }
}

=== FILE: php_strings.dfy ===
/** The PHP string functions the module relies on, on byte strings (one
    `char` per byte): `strtolower`, `basename` and `str_replace`. */
module PhpStrings {

  /** `needle` occurs in `s` starting at index `i`. */
  predicate OccursAt(s: string, needle: string, i: nat) {
    i + |needle| <= |s| && s[i..i + |needle|] == needle
  }

  /** `needle` occurs somewhere in `s`. */
  predicate Occurs(s: string, needle: string) {
    exists i: nat :: i <= |s| && OccursAt(s, needle, i)
  }

  /** Neither string is a prefix of the other: they differ at some index
      both of them have. */
  predicate Incompatible(a: string, b: string) {
    exists k: nat :: k < |a| && k < |b| && a[k] != b[k]
  }

  /** ASCII upper case, the only characters `strtolower` changes from PHP 8.2
      on, and in the C locale before that. */
  predicate IsUpper(c: char) {
    'A' <= c <= 'Z'
  }

  function LowerChar(c: char): (d: char)
    ensures !IsUpper(d)
    ensures IsUpper(c) ==> d as int == c as int + 32
    ensures !IsUpper(c) ==> d == c
  {
    if IsUpper(c) then (c as int + 32) as char else c
  }

  /** `strtolower`: byte-wise ASCII lower-casing. */
  function Lower(s: string): (r: string)
    ensures |r| == |s|
    ensures forall i | 0 <= i < |s| :: r[i] == LowerChar(s[i])
  {
    seq(|s|, i requires 0 <= i < |s| => LowerChar(s[i]))
  }

  lemma LowerIdempotent(s: string)
    ensures Lower(Lower(s)) == Lower(s)
  {
  }

  /** Drops every trailing `/`. */
  function StripTrailingSlashes(s: string): (r: string)
    ensures r <= s
    ensures |r| == 0 || r[|r| - 1] != '/'
    ensures forall i | |r| <= i < |s| :: s[i] == '/'
  {
    if |s| > 0 && s[|s| - 1] == '/' then StripTrailingSlashes(s[..|s| - 1]) else s
  }

  /** The part of `s` after its last `/` (all of `s` when it has none). */
  function AfterLastSlash(s: string): (r: string)
    ensures |r| <= |s| && r == s[|s| - |r|..]
    ensures '/' !in r
    ensures |r| < |s| ==> s[|s| - |r| - 1] == '/'
  {
    if |s| == 0 then s
    else if s[|s| - 1] == '/' then ""
    else AfterLastSlash(s[..|s| - 1]) + [s[|s| - 1]]
  }

  /** PHP's `basename` with `/` as the only separator: trailing slashes are
      ignored and the last path component is returned. */
  function Basename(path: string): (r: string)
    ensures '/' !in r
  {
    AfterLastSlash(StripTrailingSlashes(path))
  }

  lemma {:induction false} AfterLastSlashOfName(dir: string, name: string)
    requires '/' !in name
    ensures AfterLastSlash(dir + "/" + name) == name
    decreases |name|
  {
    var s := dir + "/" + name;
    if |name| == 0 {
      assert s[|s| - 1] == '/';
    } else {
      var init := name[..|name| - 1];
      assert s[..|s| - 1] == dir + "/" + init;
      assert s[|s| - 1] == name[|name| - 1];
      AfterLastSlashOfName(dir, init);
      assert init + [name[|name| - 1]] == name;
    }
  }

  /** The basename of `dir/name` is `name`, for a non-empty `name` without
      slashes — the shape of every uploaded file's URI. */
  lemma BasenameOfPath(dir: string, name: string)
    requires |name| > 0 && '/' !in name
    ensures Basename(dir + "/" + name) == name
  {
    var s := dir + "/" + name;
    assert s[|s| - 1] == name[|name| - 1];
    assert StripTrailingSlashes(s) == s;
    AfterLastSlashOfName(dir, name);
  }

  /** PHP's `str_replace` for one search string: scans left to right and
      replaces each non-overlapping occurrence of `needle`; an empty
      `needle` leaves the subject unchanged. */
  function StrReplace(s: string, needle: string, repl: string): string
    decreases |s|
  {
    if |needle| == 0 || |s| == 0 then s
    else if needle <= s then repl + StrReplace(s[|needle|..], needle, repl)
    else [s[0]] + StrReplace(s[1..], needle, repl)
  }

  /** A subject with no occurrence of `needle` comes back unchanged. */
  lemma {:induction false} StrReplaceNoMatch(s: string, needle: string, repl: string)
    requires !Occurs(s, needle)
    ensures StrReplace(s, needle, repl) == s
    decreases |s|
  {
    if |needle| == 0 || |s| == 0 {
    } else {
      assert !OccursAt(s, needle, 0);
      assert !(needle <= s);
      forall i: nat | i <= |s[1..]|
        ensures !OccursAt(s[1..], needle, i)
      {
        assert !OccursAt(s, needle, i + 1);
        if i + |needle| <= |s[1..]| {
          assert s[1..][i..i + |needle|] == s[i + 1..i + 1 + |needle|];
        }
      }
      StrReplaceNoMatch(s[1..], needle, repl);
    }
  }

  /** A leading occurrence is replaced and the scan resumes after it. */
  lemma StrReplaceLeading(needle: string, rest: string, repl: string)
    requires |needle| > 0
    ensures StrReplace(needle + rest, needle, repl) == repl + StrReplace(rest, needle, repl)
  {
    assert (needle + rest)[|needle|..] == rest;
  }

  lemma IncompatibleNotPrefix(w: string, repl: string, t: string)
    requires Incompatible(w, repl)
    ensures !(w <= repl + t)
  {
    var k: nat :| k < |w| && k < |repl| && w[k] != repl[k];
    assert (repl + t)[k] == repl[k];
  }

  /** If `w` is incompatible with `repl` at each of its suffixes, then `w`
      can only begin the result of a replacement where it already began the
      subject: replacing never manufactures `w`. */
  lemma {:induction false} PrefixSurvivesReplace(s: string, needle: string, repl: string, w: string)
    requires |needle| > 0
    requires forall j | 0 <= j < |w| :: Incompatible(w[j..], repl)
    requires w <= StrReplace(s, needle, repl)
    ensures w <= s
    decreases |s|
  {
    if |w| == 0 || |s| == 0 {
    } else if needle <= s {
      assert w[0..] == w;
      IncompatibleNotPrefix(w, repl, StrReplace(s[|needle|..], needle, repl));
      assert false;
    } else {
      var t := StrReplace(s[1..], needle, repl);
      assert w[0] == s[0];
      assert w[1..] <= t;
      forall j | 0 <= j < |w[1..]|
        ensures Incompatible(w[1..][j..], repl)
      {
        assert w[1..][j..] == w[j + 1..];
      }
      PrefixSurvivesReplace(s[1..], needle, repl, w[1..]);
    }
  }

  /** Conditions under which `str_replace(needle, repl, ·)` leaves no
      occurrence of `needle` behind: no occurrence can start inside `repl`,
      and no proper suffix of `needle` can run into `repl`. */
  predicate ReplaceIsExhaustive(needle: string, repl: string) {
    && |needle| > 0
    && (forall i | 0 <= i < |repl| :: Incompatible(repl[i..], needle))
    && (forall j | 1 <= j < |needle| :: Incompatible(needle[j..], repl))
  }

  /** No occurrence of `needle` starts inside a `repl` that is incompatible
      with it at every position, so none is found in `repl + t` either when
      `t` has none. */
  lemma NoOccurrenceAfterRepl(repl: string, t: string, needle: string)
    requires |needle| > 0
    requires forall i | 0 <= i < |repl| :: Incompatible(repl[i..], needle)
    requires !Occurs(t, needle)
    ensures !Occurs(repl + t, needle)
  {
    var r := repl + t;
    forall i: nat | i <= |r|
      ensures !OccursAt(r, needle, i)
    {
      if i < |repl| {
        assert Incompatible(repl[i..], needle);
        var k: nat :| k < |repl[i..]| && k < |needle| && repl[i..][k] != needle[k];
        if i + |needle| <= |r| {
          assert r[i..i + |needle|][k] == repl[i + k];
        }
      } else if i + |needle| <= |r| {
        assert r[i..i + |needle|] == t[i - |repl|..i - |repl| + |needle|];
        assert !OccursAt(t, needle, i - |repl|);
      }
    }
  }

  /** Prepending one character adds an occurrence only at the front. */
  lemma NoOccurrenceAfterChar(c: char, t: string, needle: string)
    requires !(needle <= [c] + t)
    requires !Occurs(t, needle)
    ensures !Occurs([c] + t, needle)
  {
    var r := [c] + t;
    forall i: nat | i <= |r|
      ensures !OccursAt(r, needle, i)
    {
      if i > 0 && i + |needle| <= |r| {
        assert r[i..i + |needle|] == t[i - 1..i - 1 + |needle|];
        assert !OccursAt(t, needle, i - 1);
      }
    }
  }

  /** Under `ReplaceIsExhaustive`, `str_replace` leaves no occurrence of
      `needle` in its result. */
  lemma {:induction false} StrReplaceRemovesAll(s: string, needle: string, repl: string)
    requires ReplaceIsExhaustive(needle, repl)
    ensures !Occurs(StrReplace(s, needle, repl), needle)
    decreases |s|
  {
    if |s| == 0 {
    } else if needle <= s {
      StrReplaceRemovesAll(s[|needle|..], needle, repl);
      NoOccurrenceAfterRepl(repl, StrReplace(s[|needle|..], needle, repl), needle);
    } else {
      var t := StrReplace(s[1..], needle, repl);
      StrReplaceRemovesAll(s[1..], needle, repl);
      if needle <= [s[0]] + t {
        var w := needle[1..];
        assert w <= t;
        forall j | 0 <= j < |w|
          ensures Incompatible(w[j..], repl)
        {
          assert w[j..] == needle[j + 1..];
        }
        PrefixSurvivesReplace(s[1..], needle, repl, w);
        assert false;
      }
      NoOccurrenceAfterChar(s[0], t, needle);
    }
  }
}

=== FILE: record_id.dfy ===
/** Derivation of a config-file record's machine name from the uploaded
    file's name (`ConfigFileStorage::createFromFile`). */
module RecordId {
  import opened PhpStrings

  /** Longest id kept as it is. */
  const MaxIdLength := 238
  /** How much of an over-long id survives in front of the hash suffix. */
  const KeptPrefixLength := 200
  /** How many hex characters of the SHA-256 digest are appended. */
  const HashSuffixLength := 10

  predicate IsHexChar(c: char) {
    '0' <= c <= '9' || 'a' <= c <= 'f'
  }

  /** A lower-case hex SHA-256 digest, as `hash('sha256', …)` returns. */
  type HexDigest = s: string | |s| == 64 && forall i | 0 <= i < |s| :: IsHexChar(s[i])
    witness seq(64, i => '0')

  /** The characters the id pattern `[a-z0-9_]` allows. */
  predicate IsIdChar(c: char) {
    'a' <= c <= 'z' || '0' <= c <= '9' || c == '_'
  }

  predicate IsIdString(s: string) {
    forall i | 0 <= i < |s| :: IsIdChar(s[i])
  }

  predicate NoDoubleUnderscore(s: string) {
    forall i | 0 <= i < |s| - 1 :: s[i] == '_' ==> s[i + 1] != '_'
  }

  /** Drops the leading run of characters outside `[a-z0-9_]`. */
  function DropNonId(s: string): (r: string)
    ensures |r| <= |s| && r == s[|s| - |r|..]
    ensures |r| == 0 || IsIdChar(r[0])
  {
    if |s| == 0 || IsIdChar(s[0]) then s else DropNonId(s[1..])
  }

  /** `preg_replace('/[^a-z0-9_]+/', '_', s)`: each maximal run of
      characters outside the id alphabet becomes one `_`. */
  function ReplaceRuns(s: string): (r: string)
    ensures IsIdString(r)
    ensures |r| <= |s|
    decreases |s|
  {
    if |s| == 0 then ""
    else if IsIdChar(s[0]) then [s[0]] + ReplaceRuns(s[1..])
    else "_" + ReplaceRuns(DropNonId(s[1..]))
  }

  /** Drops the leading run of underscores. */
  function DropUnderscores(s: string): (r: string)
    ensures |r| <= |s| && r == s[|s| - |r|..]
    ensures |r| == 0 || r[0] != '_'
  {
    if |s| == 0 || s[0] != '_' then s else DropUnderscores(s[1..])
  }

  /** `preg_replace('/_+/', '_', s)`: each run of underscores becomes one. */
  function Collapse(s: string): (r: string)
    ensures NoDoubleUnderscore(r)
    ensures |r| <= |s|
    ensures |s| > 0 ==> |r| > 0 && r[0] == s[0]
    decreases |s|
  {
    if |s| == 0 then ""
    else if s[0] == '_' then "_" + Collapse(DropUnderscores(s[1..]))
    else [s[0]] + Collapse(s[1..])
  }

  /** The id before the length check: lower-cased, runs replaced, and
      underscores collapsed. */
  function BaseId(filename: string): (r: string)
    ensures IsIdString(r) && NoDoubleUnderscore(r)
    ensures |r| <= |filename|
  {
    var replaced := ReplaceRuns(Lower(filename));
    CollapseKeepsIds(replaced);
    Collapse(replaced)
  }

  lemma {:induction false} CollapseKeepsIds(s: string)
    requires IsIdString(s)
    ensures IsIdString(Collapse(s))
    decreases |s|
  {
    if |s| > 0 {
      if s[0] == '_' {
        CollapseKeepsIds(DropUnderscores(s[1..]));
      } else {
        CollapseKeepsIds(s[1..]);
      }
    }
  }

  /** The record id `createFromFile` derives from a file's basename, with
      SHA-256 supplied by the caller. */
  function DeriveId(filename: string, sha256: string -> HexDigest): (id: string)
    ensures IsIdString(id)
    ensures |id| <= MaxIdLength
  {
    var base := BaseId(filename);
    if |base| > MaxIdLength then
      var kept := base[..KeptPrefixLength];
      var suffix := sha256(base)[..HashSuffixLength];
      HexPrefixIsId(sha256(base), HashSuffixLength);
      ConcatIds(kept, "__");
      ConcatIds(kept + "__", suffix);
      kept + "__" + suffix
    else
      base
  }

  lemma HexPrefixIsId(h: HexDigest, n: nat)
    requires n <= |h|
    ensures IsIdString(h[..n])
  {
    forall i | 0 <= i < n
      ensures IsIdChar(h[..n][i])
    {
      assert h[..n][i] == h[i] && IsHexChar(h[i]);
    }
  }

  lemma ConcatIds(a: string, b: string)
    requires IsIdString(a) && IsIdString(b)
    ensures IsIdString(a + b)
  {
    forall i | 0 <= i < |a + b|
      ensures IsIdChar((a + b)[i])
    {
      if i < |a| {
        assert (a + b)[i] == a[i];
      } else {
        assert (a + b)[i] == b[i - |a|];
      }
    }
  }

  /** Ids that fit are kept unchanged and never contain `__`. */
  lemma ShortIdKept(filename: string, sha256: string -> HexDigest)
    requires |BaseId(filename)| <= MaxIdLength
    ensures DeriveId(filename, sha256) == BaseId(filename)
    ensures NoDoubleUnderscore(DeriveId(filename, sha256))
  {
  }

  /** Over-long ids keep their first 200 bytes, then `__` and ten
      characters of the digest of the whole collapsed id: 212 bytes. */
  lemma LongIdShape(filename: string, sha256: string -> HexDigest)
    requires |BaseId(filename)| > MaxIdLength
    ensures var id := DeriveId(filename, sha256);
      && |id| == KeptPrefixLength + 2 + HashSuffixLength == 212
      && id[..KeptPrefixLength] == BaseId(filename)[..KeptPrefixLength]
      && id[KeptPrefixLength..KeptPrefixLength + 2] == "__"
      && id[KeptPrefixLength + 2..] == sha256(BaseId(filename))[..HashSuffixLength]
  {
  }

  /** A long id always contains `__` and a short one never does, so an id of
      one form never equals an id of the other. */
  lemma ShortAndLongNeverCollide(a: string, b: string, sha256: string -> HexDigest)
    requires |BaseId(a)| <= MaxIdLength < |BaseId(b)|
    ensures DeriveId(a, sha256) != DeriveId(b, sha256)
  {
    var ida := DeriveId(a, sha256);
    var idb := DeriveId(b, sha256);
    assert idb[KeptPrefixLength] == '_' && idb[KeptPrefixLength + 1] == '_';
  }

  /** Two files get the same id only when their collapsed names agree, or
      when both are long and share the kept prefix and the digest prefix. */
  lemma SameIdMeansSameBase(a: string, b: string, sha256: string -> HexDigest)
    requires DeriveId(a, sha256) == DeriveId(b, sha256)
    ensures |BaseId(a)| <= MaxIdLength <==> |BaseId(b)| <= MaxIdLength
    ensures |BaseId(a)| <= MaxIdLength ==> BaseId(a) == BaseId(b)
    ensures |BaseId(a)| > MaxIdLength ==>
      && BaseId(a)[..KeptPrefixLength] == BaseId(b)[..KeptPrefixLength]
      && sha256(BaseId(a))[..HashSuffixLength] == sha256(BaseId(b))[..HashSuffixLength]
  {
    if |BaseId(a)| <= MaxIdLength < |BaseId(b)| {
      ShortAndLongNeverCollide(a, b, sha256);
    } else if |BaseId(b)| <= MaxIdLength < |BaseId(a)| {
      ShortAndLongNeverCollide(b, a, sha256);
    } else if |BaseId(a)| > MaxIdLength {
      var id := DeriveId(a, sha256);
      assert id[..KeptPrefixLength] == BaseId(a)[..KeptPrefixLength];
      assert id[..KeptPrefixLength] == BaseId(b)[..KeptPrefixLength];
      assert id[KeptPrefixLength + 2..] == sha256(BaseId(a))[..HashSuffixLength];
      assert id[KeptPrefixLength + 2..] == sha256(BaseId(b))[..HashSuffixLength];
    }
  }

  // ---------------------------------------------------------------------
  // A reference normalisation: map every disallowed character to `_`, then
  // squeeze underscores. It agrees with the two-pattern pipeline.

  function MapNonId(s: string): (r: string)
    ensures |r| == |s|
    ensures IsIdString(r)
  {
    seq(|s|, i requires 0 <= i < |s| => if IsIdChar(s[i]) then s[i] else '_')
  }

  /** What `Collapse` makes of a string that begins with `c` and continues
      with something already collapsed to `y`. */
  function Cons(c: char, y: string): string {
    if c == '_' && |y| > 0 && y[0] == '_' then y else [c] + y
  }

  lemma CollapseCons(c: char, x: string)
    ensures Collapse([c] + x) == Cons(c, Collapse(x))
  {
    assert ([c] + x)[1..] == x;
    if c == '_' && |x| > 0 && x[0] == '_' {
      assert DropUnderscores(x) == DropUnderscores(x[1..]);
    }
  }

  lemma MapNonIdCons(s: string)
    requires |s| > 0
    ensures MapNonId(s) == [if IsIdChar(s[0]) then s[0] else '_'] + MapNonId(s[1..])
  {
    var m := [if IsIdChar(s[0]) then s[0] else '_'] + MapNonId(s[1..]);
    assert forall i | 0 <= i < |s| :: MapNonId(s)[i] == m[i];
  }

  lemma {:induction false} RunAbsorbed(s: string)
    ensures Cons('_', Collapse(MapNonId(s))) == Cons('_', Collapse(MapNonId(DropNonId(s))))
    decreases |s|
  {
    if |s| > 0 && !IsIdChar(s[0]) {
      MapNonIdCons(s);
      CollapseCons('_', MapNonId(s[1..]));
      RunAbsorbed(s[1..]);
    }
  }

  lemma IdCharStep(s: string)
    requires |s| > 0 && IsIdChar(s[0])
    requires Collapse(ReplaceRuns(s[1..])) == Collapse(MapNonId(s[1..]))
    ensures Collapse(ReplaceRuns(s)) == Collapse(MapNonId(s))
  {
    MapNonIdCons(s);
    assert ReplaceRuns(s) == [s[0]] + ReplaceRuns(s[1..]);
    CollapseCons(s[0], ReplaceRuns(s[1..]));
    CollapseCons(s[0], MapNonId(s[1..]));
  }

  lemma RunStep(s: string)
    requires |s| > 0 && !IsIdChar(s[0])
    requires Collapse(ReplaceRuns(DropNonId(s[1..]))) == Collapse(MapNonId(DropNonId(s[1..])))
    ensures Collapse(ReplaceRuns(s)) == Collapse(MapNonId(s))
  {
    var d := DropNonId(s[1..]);
    MapNonIdCons(s);
    assert ReplaceRuns(s) == "_" + ReplaceRuns(d);
    CollapseCons('_', ReplaceRuns(d));
    CollapseCons('_', MapNonId(s[1..]));
    RunAbsorbed(s[1..]);
  }

  /** The two `preg_replace` passes give the same result as mapping each
      disallowed character to `_` and collapsing. */
  lemma {:induction false} ReplaceRunsAgreesWithMap(s: string)
    ensures Collapse(ReplaceRuns(s)) == Collapse(MapNonId(s))
    decreases |s|
  {
    if |s| == 0 {
    } else if IsIdChar(s[0]) {
      ReplaceRunsAgreesWithMap(s[1..]);
      IdCharStep(s);
    } else {
      ReplaceRunsAgreesWithMap(DropNonId(s[1..]));
      RunStep(s);
    }
  }

  lemma BaseIdByReference(filename: string)
    ensures BaseId(filename) == Collapse(MapNonId(Lower(filename)))
  {
    ReplaceRunsAgreesWithMap(Lower(filename));
  }

  // ---------------------------------------------------------------------
  // Fixed points.

  lemma {:induction false} ReplaceRunsFixesIds(s: string)
    requires IsIdString(s)
    ensures ReplaceRuns(s) == s
    decreases |s|
  {
    if |s| > 0 {
      ReplaceRunsFixesIds(s[1..]);
    }
  }

  /** `Collapse` changes a string exactly when it holds `__`. */
  lemma {:induction false} CollapseFixpoint(s: string)
    ensures Collapse(s) == s <==> NoDoubleUnderscore(s)
    decreases |s|
  {
    if NoDoubleUnderscore(s) && |s| > 0 {
      assert NoDoubleUnderscore(s[1..]);
      CollapseFixpoint(s[1..]);
      if s[0] == '_' {
        assert DropUnderscores(s[1..]) == s[1..];
      }
    }
  }

  /** Re-deriving from a short id gives the id back. */
  lemma ShortIdIsStable(filename: string, sha256: string -> HexDigest)
    requires |BaseId(filename)| <= MaxIdLength
    ensures DeriveId(DeriveId(filename, sha256), sha256) == DeriveId(filename, sha256)
  {
    var id := DeriveId(filename, sha256);
    assert Lower(id) == id;
    ReplaceRunsFixesIds(id);
    CollapseFixpoint(id);
  }

  /** The id ignores letter case. */
  lemma IdIgnoresCase(filename: string, sha256: string -> HexDigest)
    ensures DeriveId(Lower(filename), sha256) == DeriveId(filename, sha256)
  {
    LowerIdempotent(filename);
  }

  lemma LowerOfReport(s: string)
    requires s == "report.TXT"
    ensures Lower(s) == "report.txt"
  {
  }

  lemma MapNonIdOfReport(s: string)
    requires s == "report.txt"
    ensures MapNonId(s) == "report_txt"
  {
  }

  lemma ReportIsCollapsed(s: string)
    requires s == "report_txt"
    ensures Collapse(s) == s
  {
    assert NoDoubleUnderscore(s);
    CollapseFixpoint(s);
  }

  /** The worked example: `report.TXT` becomes `report_txt`. */
  lemma ReportExample(filename: string, sha256: string -> HexDigest)
    requires filename == "report.TXT"
    ensures DeriveId(filename, sha256) == "report_txt"
  {
    var lowered := Lower(filename);
    LowerOfReport(filename);
    MapNonIdOfReport(lowered);
    ReportIsCollapsed(MapNonId(lowered));
    BaseIdByReference(filename);
    assert |BaseId(filename)| == 10;
  }
}

=== FILE: storage.dfy ===
/** `ConfigFileStorage`: lookups of config-file records and their creation
    from an uploaded file. The record storage is a sequence in load order. */
module RecordStorage {
  import opened Wrappers
  import opened PhpStrings
  import opened RecordId
  import opened ConfigFileEntity

  type Store = seq<ConfigFile>

  /** `load($id)`. */
  function Load(store: Store, id: string): (r: Option<ConfigFile>)
    ensures r.Some? ==> r.value in store && r.value.id == id
    ensures r.None? <==> forall c | c in store :: c.id != id
  {
    if |store| == 0 then None
    else if store[0].id == id then Some(store[0])
    else Load(store[1..], id)
  }

  /** `loadByUri($uri)`: the first record with that URI, or `NULL`. */
  function LoadByUri(store: Store, uri: string): (r: Option<ConfigFile>)
    ensures r.Some? ==> r.value in store && r.value.uri == uri
    ensures r.None? <==> forall c | c in store :: c.uri != uri
  {
    if |store| == 0 then None
    else if store[0].uri == uri then Some(store[0])
    else LoadByUri(store[1..], uri)
  }

  /** `LoadByUri` returns the first match: no earlier record has the URI. */
  lemma {:induction false} LoadByUriFirst(store: Store, uri: string, i: nat)
    requires i < |store| && store[i].uri == uri
    requires forall j | 0 <= j < i :: store[j].uri != uri
    ensures LoadByUri(store, uri) == Some(store[i])
    decreases i
  {
    if i > 0 {
      assert store[1..][i - 1] == store[i];
      LoadByUriFirst(store[1..], uri, i - 1);
    }
  }

  /** `loadByFile($file)`. */
  function LoadByFile(store: Store, f: FileEntity): (r: Option<ConfigFile>)
    ensures r.Some? ==> r.value in store && r.value.uri == f.uri
    ensures r.None? <==> forall c | c in store :: c.uri != f.uri
  {
    LoadByUri(store, f.uri)
  }

  /** `File::load($fid)` over the host's file entities. */
  function LoadFile(files: seq<FileEntity>, fid: nat): (r: Option<FileEntity>)
    ensures r.Some? ==> r.value in files && r.value.fid == fid
    ensures r.None? <==> forall f | f in files :: f.fid != fid
  {
    if |files| == 0 then None
    else if files[0].fid == fid then Some(files[0])
    else LoadFile(files[1..], fid)
  }

  /** `loadByFileId($fid)`: `NULL` when no file entity has that id,
      otherwise the lookup by that file's URI. */
  function LoadByFileId(store: Store, files: seq<FileEntity>, fid: nat): (r: Option<ConfigFile>)
    ensures LoadFile(files, fid).None? ==> r.None?
    ensures LoadFile(files, fid).Some? ==> r == LoadByUri(store, LoadFile(files, fid).value.uri)
    ensures r.Some? ==> exists f | f in files :: f.fid == fid && r.value.uri == f.uri
  {
    match LoadFile(files, fid)
    case None => None
    case Some(f) => LoadByFile(store, f)
  }

  /** `createFromFile($file)`: a new, unsaved record for an uploaded file. */
  function CreateFromFile(f: FileEntity, sha256: string -> HexDigest): (r: ConfigFile)
    ensures r.filename == Basename(f.uri) && '/' !in r.filename
    ensures r.uri == f.uri && r.uid == f.uid
    ensures IsIdString(r.id) && |r.id| <= MaxIdLength
    ensures r.parent.None? && r.parentField.None? && r.changed.None?
    ensures r.dependents == [] && !r.deleteMarker
  {
    var filename := Basename(f.uri);
    ConfigFile(DeriveId(filename, sha256), filename, f.uri, f.uid, None, None, None, [], false)
  }

  /** A record created for an upload `public://neo-file/<name>` is named
      after the upload, takes its id from that name, and tracks it at
      `config://files/<name>`. */
  lemma CreateFromUpload(f: FileEntity, name: string, sha256: string -> HexDigest)
    requires f.uri == PublicUri + "/" + name
    requires |name| > 0 && '/' !in name && !Occurs(name, PublicUri)
    ensures var r := CreateFromFile(f, sha256);
      && r.filename == name
      && r.id == DeriveId(name, sha256)
      && GetConfigUri(r) == ConfigUri + "/" + name
  {
    BasenameOfPath(PublicUri, name);
    ConfigUriOfUpload(CreateFromFile(f, sha256), name);
  }

  /** Records created from the same uploaded file are equal. */
  lemma CreateFromFileDeterministic(f: FileEntity, g: FileEntity, sha256: string -> HexDigest)
    requires f.uri == g.uri && f.uid == g.uid
    ensures CreateFromFile(f, sha256) == CreateFromFile(g, sha256)
  {
  }

  /** A created record is found again by the file it was created from,
      once it is the only record with that URI. */
  lemma CreatedRecordFoundByFile(store: Store, f: FileEntity, sha256: string -> HexDigest)
    requires forall c | c in store :: c.uri != f.uri
    ensures LoadByFile(store + [CreateFromFile(f, sha256)], f) == Some(CreateFromFile(f, sha256))
  {
    var r := CreateFromFile(f, sha256);
    var s := store + [r];
    assert s[|store|] == r;
    forall j | 0 <= j < |store| ensures s[j].uri != f.uri {
      assert s[j] == store[j];
    }
    LoadByUriFirst(s, f.uri, |store|);
  }
}

=== FILE: subscriber.dfy ===
/** `ConfigSubscriber`: the three configuration-lifecycle hooks, each a
    fold of the sync engine over the records named in a config storage.
    A config storage is given by the list of its config names. */
module ConfigSubscriber {
  import opened Wrappers
  import opened Codec
  import opened ConfigFileEntity
  import opened SyncEngine
  import opened RecordStorage
  import CacheBin

  // -----------------------------------------------------------------------
  // Config names.

  /** `listAll($prefix)`: the names that start with `prefix`, in order. */
  function ListAll(names: seq<string>, prefix: string): (r: seq<string>)
    ensures forall n | n in r :: n in names && prefix <= n
    ensures forall n | n in names && prefix <= n :: n in r
  {
    if |names| == 0 then []
    else if prefix <= names[0] then [names[0]] + ListAll(names[1..], prefix)
    else ListAll(names[1..], prefix)
  }

  /** `substr($config_name, strlen($prefix))`. */
  function StripPrefix(name: string, prefix: string): (id: string)
    requires prefix <= name
    ensures prefix + id == name
  {
    name[|prefix|..]
  }

  /** The ids of the records a config storage names. */
  function ListedIds(names: seq<string>): (ids: seq<string>)
    ensures forall id | id in ids :: ConfigPrefix + id in names
    ensures forall id :: ConfigPrefix + id in names ==> id in ids
  {
    var listed := ListAll(names, ConfigPrefix);
    assert forall i | 0 <= i < |listed| :: ConfigPrefix <= listed[i] by {
      forall i | 0 <= i < |listed| ensures ConfigPrefix <= listed[i] {
        assert listed[i] in listed;
      }
    }
    var ids := seq(|listed|, i requires 0 <= i < |listed| => StripPrefix(listed[i], ConfigPrefix));
    assert forall id :: ConfigPrefix + id in names ==> id in ids by {
      forall id | ConfigPrefix + id in names ensures id in ids {
        var n := ConfigPrefix + id;
        assert n in listed;
        var i :| 0 <= i < |listed| && listed[i] == n;
        assert ids[i] == id;
      }
    }
    ids
  }

  // -----------------------------------------------------------------------
  // onImport.

  /** `onImport()`: a configuration import really empties the cache bin. */
  function OnImport(w: World): (w': World)
    ensures w' == w.(cache := w'.cache)
    ensures forall k :: CacheBin.Get(w'.cache, k).None?
  {
    w.(cache := CacheBin.PurgeAll(w.cache))
  }

  // -----------------------------------------------------------------------
  // onStorageTransformImport.

  /** The engine step of the import hook for one record id: restore the
      record's file from cache when it has a file entity. An id naming no
      record is skipped. */
  function RestoreOne(store: Store, id: string, l: Layers, w: World): (w': World)
    ensures w' == w.(disk := w'.disk)
    ensures forall k | k in w.disk :: k in w'.disk && w'.disk[k] == w.disk[k]
    ensures forall k | k in w'.disk && k !in w.disk :: exists f | f in w.files :: f.uri == k
  {
    match Load(store, id)
    case None => w
    case Some(r) =>
      match GetFile(r, w)
      case None => w
      case Some(f) => ValidateFile(r, f, l, w)
  }

  function RestoreAll(store: Store, ids: seq<string>, l: Layers, w: World): (w': World)
    ensures w' == w.(disk := w'.disk)
    ensures forall k | k in w.disk :: k in w'.disk && w'.disk[k] == w.disk[k]
    ensures forall k | k in w'.disk && k !in w.disk :: exists f | f in w.files :: f.uri == k
    decreases |ids|
  {
    if |ids| == 0 then w else RestoreAll(store, ids[1..], l, RestoreOne(store, ids[0], l, w))
  }

  /** `onStorageTransformImport($event)` as intended: for every named
      record with a file entity, run `validateFile`. */
  function OnStorageTransformImport(names: seq<string>, store: Store, l: Layers, w: World): (w': World)
    ensures w' == w.(disk := w'.disk)
    ensures forall k | k in w.disk :: k in w'.disk && w'.disk[k] == w.disk[k]
    ensures forall k | k in w'.disk && k !in w.disk :: exists f | f in w.files :: f.uri == k
  {
    RestoreAll(store, ListedIds(names), l, w)
  }

  /** Whether a record's public file is present after the import hook. */
  predicate Restorable(r: ConfigFile, l: Layers, w: World) {
    GetFile(r, w).Some? && (r.uri in w.disk || Truthy(GetCache(r, l, w)))
  }

  lemma {:induction false} RestoreAllRestores(store: Store, ids: seq<string>, l: Layers, w: World, id: string)
    requires id in ids && Load(store, id).Some? && Restorable(Load(store, id).value, l, w)
    ensures Load(store, id).value.uri in RestoreAll(store, ids, l, w).disk
    decreases |ids|
  {
    var r := Load(store, id).value;
    var w1 := RestoreOne(store, ids[0], l, w);
    if ids[0] == id {
      assert r.uri in w1.disk;
    } else {
      assert id in ids[1..];
      assert GetCache(r, l, w1) == GetCache(r, l, w);
      RestoreAllRestores(store, ids[1..], l, w1, id);
    }
  }

  /** After the import hook, every named record whose file entity exists
      and whose bytes are on disk or in a truthy cache entry has its public
      file on disk. */
  lemma ImportRestoresFiles(names: seq<string>, store: Store, l: Layers, w: World, id: string)
    requires ConfigPrefix + id in names
    requires Load(store, id).Some? && Restorable(Load(store, id).value, l, w)
    ensures Load(store, id).value.uri in OnStorageTransformImport(names, store, l, w).disk
  {
    RestoreAllRestores(store, ListedIds(names), l, w, id);
  }

  /** What the import hook as written leaves behind: it completes, or it
      stops on a PHP error. */
  datatype HookOutcome = Completed(world: World) | Crashed(world: World)

  /** `onStorageTransformImport($event)` as written: `$config_file` is
      `NULL` when the id names no stored record, and `getFile()` on it is an
      error; `validateFile` is protected on the record, so calling it from
      the subscriber is an error too. */
  function ImportAsWritten(store: Store, ids: seq<string>, w: World): (o: HookOutcome)
    ensures o.world == w
    ensures o.Crashed? <==> exists id | id in ids :: Load(store, id).None? || GetFile(Load(store, id).value, w).Some?
    decreases |ids|
  {
    if |ids| == 0 then Completed(w)
    else
      match Load(store, ids[0])
      case None =>
        assert ids[0] in ids;
        Crashed(w)
      case Some(r) =>
        if GetFile(r, w).Some? then
          assert ids[0] in ids;
          Crashed(w)
        else
          var rest := ImportAsWritten(store, ids[1..], w);
          assert forall id | id in ids[1..] :: id in ids;
          assert rest.Crashed? ==> exists id | id in ids :: Load(store, id).None? || GetFile(Load(store, id).value, w).Some?;
          rest
  }

  /** As written, the import hook never restores a file: it stops on the
      first named record that has a file entity, which is exactly the
      record whose file it was meant to restore. The intended hook writes
      the cached bytes back. */
  lemma ImportAsWrittenNeverRestores(names: seq<string>, store: Store, l: Layers, w: World, id: string)
    requires ConfigPrefix + id in names
    requires Load(store, id).Some? && GetFile(Load(store, id).value, w).Some?
    requires Load(store, id).value.uri !in w.disk && Truthy(GetCache(Load(store, id).value, l, w))
    ensures ImportAsWritten(store, ListedIds(names), w).Crashed?
    ensures Load(store, id).value.uri !in ImportAsWritten(store, ListedIds(names), w).world.disk
    ensures Load(store, id).value.uri in OnStorageTransformImport(names, store, l, w).disk
  {
    ImportAsWrittenCrashes(store, ListedIds(names), w, id);
    ImportRestoresFiles(names, store, l, w, id);
  }

  lemma ImportAsWrittenCrashes(store: Store, ids: seq<string>, w: World, id: string)
    requires id in ids && Load(store, id).Some? && GetFile(Load(store, id).value, w).Some?
    ensures ImportAsWritten(store, ids, w) == Crashed(w)
  {
  }

  // -----------------------------------------------------------------------
  // onStorageTransformExport.

  /** Paths `deleteRecursive(CONFIG_URI)` removes. */
  predicate InConfigArea(k: string) {
    k == ConfigUri || ConfigUri + "/" <= k
  }

  function ClearConfigArea(disk: map<string, Bytes>): (d: map<string, Bytes>)
    ensures forall k | k in d :: !InConfigArea(k)
    ensures forall k | k in disk && !InConfigArea(k) :: k in d && d[k] == disk[k]
    ensures d.Keys <= disk.Keys
  {
    map k | k in disk && !InConfigArea(k) :: disk[k]
  }

  /** The engine step of the export hook for one record id: `toConfig()`.
      An id naming no record is skipped. */
  function ExportOne(store: Store, id: string, l: Layers, w: World): (w': World)
    ensures w' == w.(disk := w'.disk, files := w'.files, cache := w'.cache)
    ensures SameUris(w.files, w'.files)
    ensures forall k | k in w.disk :: k in w'.disk
    ensures forall k | k in w.disk && (Load(store, id).Some? ==> k != GetConfigUri(Load(store, id).value)) ::
      w'.disk[k] == w.disk[k]
    ensures forall k | k in w'.disk && k !in w.disk ::
      Load(store, id).Some? && k in {Load(store, id).value.uri, GetConfigUri(Load(store, id).value)}
  {
    match Load(store, id)
    case None => w
    case Some(r) => ToConfig(r, l, w).world
  }

  /** The URIs the export can write for the given ids: each loaded
      record's own URI (a restore) and its config URI (the copy). */
  function Written(store: Store, ids: seq<string>): (s: set<string>)
    ensures forall id | id in ids && Load(store, id).Some? ::
      Load(store, id).value.uri in s && GetConfigUri(Load(store, id).value) in s
    decreases |ids|
  {
    if |ids| == 0 then {}
    else
      var rest := Written(store, ids[1..]);
      match Load(store, ids[0])
      case None => rest
      case Some(r) => rest + {r.uri, GetConfigUri(r)}
  }

  lemma {:induction false} WrittenOnlyByListed(store: Store, ids: seq<string>, k: string)
    requires k in Written(store, ids)
    ensures exists id | id in ids ::
      (Load(store, id).Some? && (k == Load(store, id).value.uri || k == GetConfigUri(Load(store, id).value)))
    decreases |ids|
  {
    if Load(store, ids[0]).Some? && k in {Load(store, ids[0]).value.uri, GetConfigUri(Load(store, ids[0]).value)} {
      assert ids[0] in ids;
    } else {
      WrittenOnlyByListed(store, ids[1..], k);
      var id :| id in ids[1..] && Load(store, id).Some? &&
        (k == Load(store, id).value.uri || k == GetConfigUri(Load(store, id).value));
      assert id in ids;
    }
  }

  function ExportAll(store: Store, ids: seq<string>, l: Layers, w: World): (w': World)
    ensures w' == w.(disk := w'.disk, files := w'.files, cache := w'.cache)
    ensures SameUris(w.files, w'.files)
    ensures forall k | k in w.disk :: k in w'.disk
    ensures forall k | k in w'.disk && k !in w.disk :: k in Written(store, ids)
    decreases |ids|
  {
    if |ids| == 0 then w
    else
      var w1 := ExportOne(store, ids[0], l, w);
      var w' := ExportAll(store, ids[1..], l, w1);
      assert forall k | k in Written(store, ids[1..]) :: k in Written(store, ids);
      w'
  }

  /** `onStorageTransformExport($event)`: nothing when the config directory
      is not writable; otherwise clear the config area, run `toConfig` for
      every named record, and empty the cache bin. */
  function OnStorageTransformExport(names: seq<string>, store: Store, l: Layers, w: World): (w': World)
    ensures !w.configWritable ==> w' == w
    ensures w.configWritable ==> forall k :: CacheBin.Get(w'.cache, k).None?
    ensures w' == w.(disk := w'.disk, files := w'.files, cache := w'.cache)
    ensures w.configWritable ==>
      forall k | k in w'.disk && InConfigArea(k) :: k in Written(store, ListedIds(names))
  {
    if !w.configWritable then w
    else
      var cleared := w.(disk := ClearConfigArea(w.disk));
      var exported := ExportAll(store, ListedIds(names), l, cleared);
      exported.(cache := CacheBin.PurgeAll(exported.cache))
  }

  /** After a writable export, every tracked copy in the config area was
      written for a record the config storage names. */
  lemma ExportConfigAreaIsListed(names: seq<string>, store: Store, l: Layers, w: World, k: string)
    requires k in OnStorageTransformExport(names, store, l, w).disk && InConfigArea(k)
    requires w.configWritable
    ensures exists id | ConfigPrefix + id in names ::
      (Load(store, id).Some? && (k == Load(store, id).value.uri || k == GetConfigUri(Load(store, id).value)))
  {
    WrittenOnlyByListed(store, ListedIds(names), k);
  }

  /** Whether `toConfig` for a record succeeds whenever the export reaches
      it: it has a file entity whose bytes survive the clearing, and the
      copy to a distinct, writable config URI cannot raise. */
  predicate Exportable(r: ConfigFile, w: World) {
    && GetFile(r, w).Some?
    && r.uri in w.disk && !InConfigArea(r.uri)
    && r.uri != GetConfigUri(r)
    && GetConfigUri(r) !in w.faults
  }

  /** No other named record writes over the record's public file or its
      tracked copy. */
  predicate CopyNotOverwritten(store: Store, ids: seq<string>, r: ConfigFile) {
    forall id | id in ids && id != r.id && Load(store, id).Some? ::
      GetConfigUri(Load(store, id).value) != GetConfigUri(r) && GetConfigUri(Load(store, id).value) != r.uri
  }

  /** Once the tracked copy holds the public bytes, the rest of the export
      keeps it so. */
  lemma {:induction false} ExportAllKeepsCopy(store: Store, ids: seq<string>, l: Layers, w: World, r: ConfigFile)
    requires Load(store, r.id) == Some(r) && CopyNotOverwritten(store, ids, r)
    requires r.uri in w.disk && GetConfigUri(r) in w.disk && r.uri != GetConfigUri(r)
    requires w.disk[GetConfigUri(r)] == w.disk[r.uri]
    ensures var d := ExportAll(store, ids, l, w).disk;
      d[r.uri] == w.disk[r.uri] && d[GetConfigUri(r)] == w.disk[r.uri]
    decreases |ids|
  {
    if |ids| > 0 {
      var w1 := ExportOne(store, ids[0], l, w);
      if ids[0] == r.id {
        if GetFile(r, w).Some? {
          assert ValidateFile(r, GetFile(r, w).value, l, w) == w;
        }
      } else {
        assert ids[0] in ids;
      }
      assert w1.disk[r.uri] == w.disk[r.uri] && w1.disk[GetConfigUri(r)] == w.disk[r.uri];
      assert forall id | id in ids[1..] :: id in ids;
      ExportAllKeepsCopy(store, ids[1..], l, w1, r);
    }
  }

  lemma {:induction false} ExportAllCopies(store: Store, ids: seq<string>, l: Layers, w: World, id: string)
    requires id in ids && Load(store, id).Some?
    requires var r := Load(store, id).value;
      GetFile(r, w).Some? && r.uri in w.disk && r.uri != GetConfigUri(r) && GetConfigUri(r) !in w.faults
      && CopyNotOverwritten(store, ids, r)
    ensures var r := Load(store, id).value;
      var d := ExportAll(store, ids, l, w).disk;
      GetConfigUri(r) in d && d[GetConfigUri(r)] == w.disk[r.uri]
    decreases |ids|
  {
    var r := Load(store, id).value;
    var w1 := ExportOne(store, ids[0], l, w);
    assert forall i | i in ids[1..] :: i in ids;
    if ids[0] == id {
      var f := GetFile(r, w).value;
      assert ValidateFile(r, f, l, w) == w;
      assert GetConfigUri(r) in w1.disk;
      ToConfigSuccess(r, l, w);
      assert w1.disk[r.uri] == w.disk[r.uri];
      ExportAllKeepsCopy(store, ids[1..], l, w1, r);
    } else {
      assert ids[0] in ids;
      FindFileSameUris(w.files, w1.files, r.uri);
      ExportAllCopies(store, ids[1..], l, w1, id);
    }
  }

  /** After a writable export, every named record that can be exported has
      its tracked copy at its config URI, holding the public file's bytes,
      unless another named record writes to the same place. */
  lemma ExportCopiesListed(names: seq<string>, store: Store, l: Layers, w: World, id: string)
    requires w.configWritable
    requires ConfigPrefix + id in names
    requires Load(store, id).Some? && Exportable(Load(store, id).value, w)
    requires CopyNotOverwritten(store, ListedIds(names), Load(store, id).value)
    ensures var r := Load(store, id).value;
      var d := OnStorageTransformExport(names, store, l, w).disk;
      GetConfigUri(r) in d && d[GetConfigUri(r)] == w.disk[r.uri]
  {
    var r := Load(store, id).value;
    var cleared := w.(disk := ClearConfigArea(w.disk));
    assert r.uri in cleared.disk && cleared.disk[r.uri] == w.disk[r.uri];
    ExportAllCopies(store, ListedIds(names), l, cleared, id);
  }

  /** Outside the config area, a writable export removes nothing. */
  lemma ExportKeepsOtherFiles(names: seq<string>, store: Store, l: Layers, w: World, k: string)
    requires k in w.disk && !InConfigArea(k)
    ensures k in OnStorageTransformExport(names, store, l, w).disk
  {
  }
}

=== FILE: sync_engine.dfy ===
/** The synchronisation engine of `Entity/ConfigFile`: the transfers
    between the public file, its tracked copy under `config://files` and
    the compressed cache copy, and the save and delete hooks that drive
    them. Every operation is a pure transition of an immutable `World`. */
module SyncEngine {
  import opened Wrappers
  import opened PhpStrings
  import opened Codec
  import opened ConfigFileEntity
  import CacheBin

  /** A parent callback that was invoked, with the record's id. */
  datatype Notice = Updated(id: string) | Deleted(id: string)

  /** Everything the engine reads or writes. */
  datatype World = World(
    /** File entities in storage order. */
    files: seq<FileEntity>,
    /** The id the next created file entity receives. */
    nextFid: nat,
    /** Stream-wrapper path to bytes. */
    disk: map<string, Bytes>,
    /** Destinations a copy cannot write to (the copy raises). */
    faults: set<string>,
    /** The `cache.neo_config_file` bin. */
    cache: CacheBin.Bin,
    /** Names of the files in the config sync directory. */
    syncDir: set<string>,
    /** A configuration import is running. */
    syncing: bool,
    /** The config sync directory is writable. */
    configWritable: bool,
    /** The request time stamped on new file entities. */
    now: int,
    /** Parent callbacks invoked so far. */
    notices: seq<Notice>,
    /** File entities deleted so far, as they were when deleted. */
    deletedFiles: seq<FileEntity>)

  /** An operation's new world and its return value. */
  datatype Step<T> = Step(world: World, result: T)

  // -----------------------------------------------------------------------
  // Host collaborators.

  /** `loadByProperties(['uri' => uri])` on file entities, first match. */
  function FindFile(files: seq<FileEntity>, uri: string): (r: Option<FileEntity>)
    ensures r.Some? ==> r.value in files && r.value.uri == uri
    ensures r.None? <==> forall f | f in files :: f.uri != uri
  {
    if |files| == 0 then None
    else if files[0].uri == uri then Some(files[0])
    else FindFile(files[1..], uri)
  }

  /** `getFile()`: the first file entity with the record's URI, `FALSE`
      when there is none. */
  function GetFile(r: ConfigFile, w: World): (f: Option<FileEntity>)
    ensures f.Some? ==> f.value in w.files && f.value.uri == r.uri
    ensures f.None? <==> forall g | g in w.files :: g.uri != r.uri
  {
    FindFile(w.files, r.uri)
  }

  /** `copy(src, dst, FileExists::Replace)`: `None` when it raises — the
      source is missing, it is the destination itself, or the destination
      cannot be written. */
  function Copy(w: World, src: string, dst: string): (r: Option<World>)
    ensures r.Some? <==> src in w.disk && src != dst && dst !in w.faults
    ensures r.Some? ==> r.value == w.(disk := w.disk[dst := w.disk[src]])
  {
    if src in w.disk && src != dst && dst !in w.faults then
      Some(w.(disk := w.disk[dst := w.disk[src]]))
    else
      None
  }

  /** `setPermanent()` and `save()` on the entity with id `fid`. */
  function SetPermanent(files: seq<FileEntity>, fid: nat): (r: seq<FileEntity>)
    ensures |r| == |files|
    ensures forall i | 0 <= i < |r| ::
      r[i] == (if files[i].fid == fid then files[i].(permanent := true) else files[i])
  {
    seq(|files|, i requires 0 <= i < |files| =>
      if files[i].fid == fid then files[i].(permanent := true) else files[i])
  }

  /** Two entity lists that differ at most in the entities' other fields. */
  predicate SameUris(a: seq<FileEntity>, b: seq<FileEntity>) {
    |a| == |b| && forall i | 0 <= i < |a| :: a[i].uri == b[i].uri && a[i].fid == b[i].fid
  }

  /** Whether a URI has a file entity depends only on the entities' URIs. */
  lemma {:induction false} FindFileSameUris(a: seq<FileEntity>, b: seq<FileEntity>, uri: string)
    requires SameUris(a, b)
    ensures FindFile(a, uri).Some? == FindFile(b, uri).Some?
    ensures FindFile(a, uri).Some? ==> FindFile(a, uri).value.fid == FindFile(b, uri).value.fid
    decreases |a|
  {
    if |a| > 0 {
      assert a[0].uri == b[0].uri;
      FindFileSameUris(a[1..], b[1..], uri);
    }
  }

  /** Removes the entity with id `fid`. */
  function RemoveFid(files: seq<FileEntity>, fid: nat): (r: seq<FileEntity>)
    ensures forall f | f in r :: f in files && f.fid != fid
    ensures forall f | f in files && f.fid != fid :: f in r
  {
    if |files| == 0 then []
    else if files[0].fid == fid then RemoveFid(files[1..], fid)
    else [files[0]] + RemoveFid(files[1..], fid)
  }

  // -----------------------------------------------------------------------
  // Cache operations.

  /** `getCache()`: the decoded cache entry, `False` on a miss. */
  function GetCache(r: ConfigFile, l: Layers, w: World): (v: PhpValue)
    ensures r.id !in w.cache ==> v == False
  {
    match CacheBin.Get(w.cache, r.id)
    case None => False
    case Some(token) => Decode(l, token)
  }

  /** `toCache()`: store the encoded contents of the public file (`FALSE`
      when its bytes are missing) under the record's id. */
  function ToCache(r: ConfigFile, l: Layers, w: World): (s: Step<bool>)
    ensures s.result <==> GetFile(r, w).Some?
    ensures !s.result ==> s.world == w
    ensures s.result ==> s.world == w.(cache := s.world.cache)
    ensures s.result ==> r.id in s.world.cache
    ensures forall k | k != r.id :: CacheBin.Get(s.world.cache, k) == CacheBin.Get(w.cache, k)
  {
    match GetFile(r, w)
    case None => Step(w, false)
    case Some(f) =>
      var contents := if f.uri in w.disk then Str(w.disk[f.uri]) else False;
      Step(w.(cache := CacheBin.Set(w.cache, r.id, Encode(l, contents))), true)
  }

  /** `removeCache()`: drop the record's entry, but only when it has a
      file entity. */
  function RemoveCache(r: ConfigFile, w: World): (s: Step<bool>)
    ensures s.result <==> GetFile(r, w).Some?
    ensures !s.result ==> s.world == w
    ensures s.result ==> s.world == w.(cache := s.world.cache) && r.id !in s.world.cache
    ensures forall k | k != r.id :: CacheBin.Get(s.world.cache, k) == CacheBin.Get(w.cache, k)
  {
    match GetFile(r, w)
    case None => Step(w, false)
    case Some(_) => Step(w.(cache := CacheBin.Delete(w.cache, r.id)), true)
  }

  /** After `toCache`, `getCache` returns the file's bytes. */
  lemma GetCacheAfterToCache(r: ConfigFile, l: Layers, w: World)
    requires Lawful(l)
    requires GetFile(r, w).Some? && GetFile(r, w).value.uri in w.disk
    ensures GetCache(r, l, ToCache(r, l, w).world) == Str(w.disk[GetFile(r, w).value.uri])
  {
    var f := GetFile(r, w).value;
    CacheRoundTrip(l, Str(w.disk[f.uri]));
  }

  /** After `toCache` on a file whose bytes are missing, `getCache` returns
      `FALSE`, which restores nothing. */
  lemma GetCacheAfterToCacheOfMissingBytes(r: ConfigFile, l: Layers, w: World)
    requires Lawful(l)
    requires GetFile(r, w).Some? && GetFile(r, w).value.uri !in w.disk
    ensures GetCache(r, l, ToCache(r, l, w).world) == False
  {
    CacheRoundTrip(l, False);
  }

  // -----------------------------------------------------------------------
  // Transfers.

  /** `validateFile($file)`: when the file's bytes are missing and the
      cache holds a truthy value, write the decoded bytes back. */
  function ValidateFile(r: ConfigFile, f: FileEntity, l: Layers, w: World): (w': World)
    ensures w' == w.(disk := w'.disk)
    ensures forall k | k in w.disk :: k in w'.disk && w'.disk[k] == w.disk[k]
    ensures w'.disk.Keys <= w.disk.Keys + {f.uri}
    ensures f.uri in w.disk || !Truthy(GetCache(r, l, w)) ==> w' == w
    ensures f.uri in w'.disk <==> f.uri in w.disk || Truthy(GetCache(r, l, w))
    ensures f.uri !in w.disk && Truthy(GetCache(r, l, w)) ==> w'.disk[f.uri] == GetCache(r, l, w).bytes
  {
    if f.uri in w.disk then w
    else
      var data := GetCache(r, l, w);
      if Truthy(data) then w.(disk := w.disk[f.uri := data.bytes]) else w
  }

  /** `toFile()`. With a file entity: only validate it and return `FALSE`.
      Without one: copy the tracked copy to the record's URI and create a
      permanent file entity for it; `FALSE` if the copy raises. */
  function ToFile(r: ConfigFile, l: Layers, w: World): (s: Step<Option<FileEntity>>)
    ensures GetFile(r, w).Some? ==>
      s.result.None? && s.world == ValidateFile(r, GetFile(r, w).value, l, w)
    ensures s.result.Some? <==>
      GetFile(r, w).None? && Copy(w, GetConfigUri(r), r.uri).Some?
    ensures s.result.None? ==> s.world.files == w.files
    ensures GetFile(r, w).None? && s.result.None? ==> s.world == w
    ensures s.result.Some? ==>
      var f := s.result.value;
      && f.uri == r.uri && f.filename == r.filename && f.uid == r.uid
      && f.permanent && f.fid == w.nextFid && f.changed == w.now
      && s.world.files == w.files + [f]
      && s.world.disk == w.disk[r.uri := w.disk[GetConfigUri(r)]]
      && s.world.cache == w.cache
  {
    match GetFile(r, w)
    case Some(f) => Step(ValidateFile(r, f, l, w), None)
    case None =>
      match Copy(w, GetConfigUri(r), r.uri)
      case None => Step(w, None)
      case Some(copied) =>
        var f := FileEntity(w.nextFid, r.uri, r.filename, r.uid, true, w.now, false);
        Step(copied.(files := copied.files + [f], nextFid := w.nextFid + 1), Some(f))
  }

  /** A public file is never overwritten by `toFile`, even when the tracked
      copy differs. */
  lemma ToFileNeverOverwrites(r: ConfigFile, l: Layers, w: World)
    requires GetFile(r, w).Some?
    requires GetFile(r, w).value.uri in w.disk
    ensures ToFile(r, l, w).world == w
  {
  }

  /** After a successful `toFile`, the record has a file entity whose bytes
      are those of the tracked copy. */
  lemma ToFileThenGetFile(r: ConfigFile, l: Layers, w: World)
    requires ToFile(r, l, w).result.Some?
    ensures var w' := ToFile(r, l, w).world;
      && GetFile(r, w') == ToFile(r, l, w).result
      && w'.disk[r.uri] == w.disk[GetConfigUri(r)]
  {
    var w' := ToFile(r, l, w).world;
    FindFileAppend(w.files, ToFile(r, l, w).result.value, r.uri);
  }

  lemma {:induction false} FindFileAppend(files: seq<FileEntity>, f: FileEntity, uri: string)
    requires FindFile(files, uri).None? && f.uri == uri
    ensures FindFile(files + [f], uri) == Some(f)
    decreases |files|
  {
    if |files| == 0 {
    } else {
      assert (files + [f])[1..] == files[1..] + [f];
      FindFileAppend(files[1..], f, uri);
    }
  }

  /** `toConfig()`. Without a file entity: `FALSE`, nothing touched.
      Otherwise validate the file, copy it to the config URI, drop the cache
      entry and make the file permanent; `FALSE` if the copy raises. */
  function ToConfig(r: ConfigFile, l: Layers, w: World): (s: Step<Option<string>>)
    ensures GetFile(r, w).None? ==> s == Step(w, None)
    ensures s.result.Some? ==> s.result.value == GetConfigUri(r)
    ensures s.world == w.(disk := s.world.disk, files := s.world.files, cache := s.world.cache)
    ensures SameUris(w.files, s.world.files)
    ensures forall k | k in w.disk :: k in s.world.disk
    ensures forall k | k in w.disk && k != GetConfigUri(r) :: s.world.disk[k] == w.disk[k]
    ensures s.world.disk.Keys <= w.disk.Keys + {r.uri, GetConfigUri(r)}
    ensures forall k | k in s.world.cache :: k in w.cache && s.world.cache[k] == w.cache[k]
  {
    match GetFile(r, w)
    case None => Step(w, None)
    case Some(f) =>
      var validated := ValidateFile(r, f, l, w);
      var destination := GetConfigUri(r);
      match Copy(validated, f.uri, destination)
      case None => Step(validated, None)
      case Some(copied) =>
        var uncached := RemoveCache(r, copied).world;
        var w' := match GetFile(r, uncached)
          case Some(g) => uncached.(files := SetPermanent(uncached.files, g.fid))
          case None => uncached;
        Step(w', Some(destination))
  }

  lemma {:induction false} FindFileAfterSetPermanent(files: seq<FileEntity>, fid: nat, uri: string)
    requires FindFile(files, uri).Some? && FindFile(files, uri).value.fid == fid
    ensures FindFile(SetPermanent(files, fid), uri) == Some(FindFile(files, uri).value.(permanent := true))
    decreases |files|
  {
    if files[0].uri != uri {
      assert SetPermanent(files, fid)[1..] == SetPermanent(files[1..], fid);
      FindFileAfterSetPermanent(files[1..], fid, uri);
    }
  }

  /** A successful `toConfig` leaves the config URI holding the same bytes
      as the public file, no cache entry for the record, and the file
      permanent; it removes nothing from disk. */
  lemma ToConfigSuccess(r: ConfigFile, l: Layers, w: World)
    requires ToConfig(r, l, w).result.Some?
    ensures var w' := ToConfig(r, l, w).world;
      && GetFile(r, w').Some?
      && GetFile(r, w').value == GetFile(r, w).value.(permanent := true)
      && var uri := GetFile(r, w').value.uri;
      && uri in w'.disk && GetConfigUri(r) in w'.disk
      && w'.disk[GetConfigUri(r)] == w'.disk[uri]
      && r.id !in w'.cache
      && (forall k | k in w.disk :: k in w'.disk)
  {
    var f := GetFile(r, w).value;
    var validated := ValidateFile(r, f, l, w);
    var copied := Copy(validated, f.uri, GetConfigUri(r)).value;
    var uncached := RemoveCache(r, copied).world;
    assert GetFile(r, uncached) == Some(f);
    FindFileAfterSetPermanent(uncached.files, f.fid, r.uri);
  }

  /** `toConfig` fails, leaving everything as it was, when there is no file
      entity; and it only fails otherwise when the copy raises. */
  lemma ToConfigFailure(r: ConfigFile, l: Layers, w: World)
    ensures GetFile(r, w).None? ==> ToConfig(r, l, w) == Step(w, None)
    ensures GetFile(r, w).Some? ==>
      var f := GetFile(r, w).value;
      var validated := ValidateFile(r, f, l, w);
      (ToConfig(r, l, w).result.None? <==> Copy(validated, f.uri, GetConfigUri(r)).None?)
  {
  }

  // -----------------------------------------------------------------------
  // The save and delete hooks.

  /** What `preSave` leaves behind: the saved record, or the fatal error
      raised by `$this->getFile()->getChangedTime()` when there is still no
      file entity. */
  datatype SaveOutcome = Saved(record: ConfigFile, world: World) | Fatal(world: World)

  function NotifyUpdate(r: ConfigFile, w: World): World {
    if r.parent.Some? && r.parent.value.observes then w.(notices := w.notices + [Updated(r.id)]) else w
  }

  /** `preSave()`: promote the tracked copy when there is no file entity,
      otherwise refresh the cache copy (whether or not an import is
      running); notify an observing parent; record the file's changed time. */
  function PreSave(r: ConfigFile, l: Layers, w: World): (o: SaveOutcome)
    ensures o.Fatal? <==> GetFile(r, w).None? && ToFile(r, l, w).result.None?
    ensures o.Saved? ==>
      && GetFile(r, o.world).Some?
      && o.record == r.(changed := Some(GetFile(r, o.world).value.changed))
    ensures o.world.notices == w.notices + (if r.parent.Some? && r.parent.value.observes then [Updated(r.id)] else [])
  {
    var synced :=
      if GetFile(r, w).None? then ToFile(r, l, w).world else ToCache(r, l, w).world;
    var notified := NotifyUpdate(r, synced);
    match GetFile(r, notified)
    case None => Fatal(notified)
    case Some(f) => Saved(r.(changed := Some(f.changed)), notified)
  }

  /** Saving a record whose file exists refreshes its cache copy even while
      a configuration import is running: no syncing check guards it. */
  lemma PreSaveRefreshesCache(r: ConfigFile, l: Layers, w: World)
    requires Lawful(l)
    requires GetFile(r, w).Some? && GetFile(r, w).value.uri in w.disk
    ensures PreSave(r, l, w).Saved?
    ensures GetCache(r, l, PreSave(r, l, w).world) == Str(w.disk[GetFile(r, w).value.uri])
    ensures PreSave(r, l, w).record.changed == Some(GetFile(r, w).value.changed)
  {
    GetCacheAfterToCache(r, l, w);
  }

  /** The first save of a record without a file entity creates it from the
      tracked copy and stamps its changed time. */
  lemma PreSaveCreatesFile(r: ConfigFile, l: Layers, w: World)
    requires GetFile(r, w).None? && Copy(w, GetConfigUri(r), r.uri).Some?
    ensures var o := PreSave(r, l, w);
      && o.Saved?
      && o.record.changed == Some(w.now)
      && o.world.disk[r.uri] == w.disk[GetConfigUri(r)]
      && o.world.cache == w.cache
  {
    ToFileThenGetFile(r, l, w);
  }

  /** Whether `preDelete` removes the tracked copy and the cache entry. */
  predicate PurgesCopies(r: ConfigFile, w: World) {
    w.syncing || !HasConfig(r, w.syncDir)
  }

  /** `$file->neoConfigFileDelete = TRUE; $file->delete();` The host's
      file deletion also removes the physical file. */
  function DeleteFile(w: World, f: FileEntity): (w': World)
    ensures w' == w.(disk := w'.disk, files := w'.files, deletedFiles := w'.deletedFiles)
    ensures w'.deletedFiles == w.deletedFiles + [f.(deleteMarker := true)]
    ensures forall g | g in w'.files :: g in w.files && g.fid != f.fid
    ensures forall g | g in w.files && g.fid != f.fid :: g in w'.files
    ensures f.uri !in w'.disk
    ensures forall k | k in w'.disk :: k in w.disk && w'.disk[k] == w.disk[k]
    ensures forall k | k in w.disk && k != f.uri :: k in w'.disk
  {
    w.(disk := w.disk - {f.uri},
       files := RemoveFid(w.files, f.fid),
       deletedFiles := w.deletedFiles + [f.(deleteMarker := true)])
  }

  /** Remove the tracked copy if it exists, then `removeCache()`. */
  function PurgeCopies(r: ConfigFile, w: World): (w': World)
    ensures w' == w.(disk := w'.disk, cache := w'.cache)
    ensures GetConfigUri(r) !in w'.disk
    ensures forall k | k in w'.disk :: k in w.disk && w'.disk[k] == w.disk[k]
    ensures forall k | k in w.disk && k != GetConfigUri(r) :: k in w'.disk
    ensures forall k | k in w'.cache :: k in w.cache && w'.cache[k] == w.cache[k]
    ensures GetFile(r, w).Some? ==> r.id !in w'.cache
    ensures GetFile(r, w).None? ==> w'.cache == w.cache
  {
    var uri := GetConfigUri(r);
    var removed := if uri in w.disk then w.(disk := w.disk - {uri}) else w;
    RemoveCache(r, removed).world
  }

  /** `neoConfigFileDelete()` on an observing parent. */
  function NotifyDelete(r: ConfigFile, w: World): (w': World)
    ensures w' == w.(notices := w'.notices)
  {
    w.(notices := w.notices + DeleteNotice(r))
  }

  /** Delete the record's file entity unless the record carries the marker. */
  function DeleteRecordFile(r: ConfigFile, w: World): (w': World)
    ensures w' == w.(disk := w'.disk, files := w'.files, deletedFiles := w'.deletedFiles)
    ensures forall g | g in w'.files :: g in w.files
    ensures forall k | k in w'.disk :: k in w.disk && w'.disk[k] == w.disk[k]
    ensures forall k | k in w.disk && k != r.uri :: k in w'.disk
    ensures GetFile(r, w).None? || r.deleteMarker ==> w' == w
    ensures GetFile(r, w).Some? && !r.deleteMarker ==>
      && (forall g | g in w'.files :: g.fid != GetFile(r, w).value.fid)
      && w'.deletedFiles == w.deletedFiles + [GetFile(r, w).value.(deleteMarker := true)]
      && r.uri !in w'.disk
  {
    match GetFile(r, w)
    case Some(f) => if r.deleteMarker then w else DeleteFile(w, f)
    case None => w
  }

  /** The parent callback `preDelete` makes for one record. */
  function DeleteNotice(r: ConfigFile): seq<Notice> {
    if r.parent.Some? && r.parent.value.observes then [Deleted(r.id)] else []
  }

  /** The parent callbacks for a sequence of records, in order. */
  function DeleteNotices(rs: seq<ConfigFile>): seq<Notice>
    decreases |rs|
  {
    if |rs| == 0 then [] else DeleteNotice(rs[0]) + DeleteNotices(rs[1..])
  }

  /** The body of `preDelete`'s loop for one record. */
  function PreDeleteOne(r: ConfigFile, w: World): (w': World)
    ensures w'.syncDir == w.syncDir && w'.syncing == w.syncing
    ensures forall k | k in w'.disk :: k in w.disk && w'.disk[k] == w.disk[k]
    ensures forall k | k in w'.cache :: k in w.cache && w'.cache[k] == w.cache[k]
    ensures forall g | g in w'.files :: g in w.files
    ensures w'.notices == w.notices + DeleteNotice(r)
  {
    var purged := if PurgesCopies(r, w) then PurgeCopies(r, w) else w;
    DeleteRecordFile(r, NotifyDelete(r, purged))
  }

  /** Deleting a record removes its tracked copy, and its cache entry when
      it has a file entity, exactly when an import is running or no config
      snapshot exists for it; otherwise the cache is untouched. Apart from
      those, only the record's public file can leave the disk. */
  lemma PreDeleteOneCopies(r: ConfigFile, w: World)
    ensures var w' := PreDeleteOne(r, w);
      && (PurgesCopies(r, w) ==>
            GetConfigUri(r) !in w'.disk
            && (GetFile(r, w).Some? ==> r.id !in w'.cache)
            && (GetFile(r, w).None? ==> w'.cache == w.cache))
      && (!PurgesCopies(r, w) ==> w'.cache == w.cache)
      && (forall k | k in w.disk && k != r.uri && (PurgesCopies(r, w) ==> k != GetConfigUri(r)) ::
            k in w'.disk && w'.disk[k] == w.disk[k])
  {
    var purged := if PurgesCopies(r, w) then PurgeCopies(r, w) else w;
    var notified := NotifyDelete(r, purged);
    assert notified.disk == purged.disk && notified.cache == purged.cache;
  }

  /** The record's file entity is deleted, after being marked, together
      with its public file, exactly when the record itself carries no
      delete marker. */
  lemma PreDeleteOneFile(r: ConfigFile, w: World)
    requires GetFile(r, w).Some?
    ensures var w' := PreDeleteOne(r, w);
      var f := GetFile(r, w).value;
      && (!r.deleteMarker ==>
            (forall g | g in w'.files :: g.fid != f.fid)
            && w'.deletedFiles == w.deletedFiles + [f.(deleteMarker := true)]
            && r.uri !in w'.disk)
      && (r.deleteMarker ==> w'.files == w.files && w'.deletedFiles == w.deletedFiles)
  {
    var purged := if PurgesCopies(r, w) then PurgeCopies(r, w) else w;
    var notified := NotifyDelete(r, purged);
    assert notified.files == w.files && notified.deletedFiles == w.deletedFiles;
    assert GetFile(r, notified) == GetFile(r, w);
  }

  /** `preDelete($entities)`: the loop over the records being deleted. */
  function PreDelete(rs: seq<ConfigFile>, w: World): (w': World)
    ensures w'.syncDir == w.syncDir && w'.syncing == w.syncing
    ensures forall k | k in w'.disk :: k in w.disk && w'.disk[k] == w.disk[k]
    ensures forall k | k in w'.cache :: k in w.cache && w'.cache[k] == w.cache[k]
    decreases |rs|
  {
    if |rs| == 0 then w else PreDelete(rs[1..], PreDeleteOne(rs[0], w))
  }

  /** Every record deleted while an import runs, or without a config
      snapshot, loses its tracked copy. */
  lemma {:induction false} PreDeletePurges(rs: seq<ConfigFile>, w: World, i: nat)
    requires i < |rs| && PurgesCopies(rs[i], w)
    ensures GetConfigUri(rs[i]) !in PreDelete(rs, w).disk
    decreases i
  {
    var w1 := PreDeleteOne(rs[0], w);
    if i == 0 {
      PreDeleteOneCopies(rs[0], w);
    } else {
      assert rs[1..][i - 1] == rs[i];
      PreDeletePurges(rs[1..], w1, i - 1);
    }
  }

  /** Observing parents are told of the deletions once each, in order. */
  lemma {:induction false} PreDeleteNotices(rs: seq<ConfigFile>, w: World)
    ensures PreDelete(rs, w).notices == w.notices + DeleteNotices(rs)
    decreases |rs|
  {
    if |rs| > 0 {
      var w1 := PreDeleteOne(rs[0], w);
      PreDeleteNotices(rs[1..], w1);
      assert PreDelete(rs, w).notices == w1.notices + DeleteNotices(rs[1..]);
      assert DeleteNotices(rs) == DeleteNotice(rs[0]) + DeleteNotices(rs[1..]);
      AppendAssoc(w.notices, DeleteNotice(rs[0]), DeleteNotices(rs[1..]));
    }
  }

  lemma AppendAssoc<T>(a: seq<T>, b: seq<T>, c: seq<T>)
    ensures a + b + c == a + (b + c)
  {
  }

  /** The public URIs of the records being deleted. */
  function UrisOf(rs: seq<ConfigFile>): set<string> {
    set r | r in rs :: r.uri
  }

  /** Outside an import, deleting records that all have config snapshots
      keeps every cache entry, and removes from disk nothing but the
      records' own public files. */
  lemma {:induction false} PreDeleteKeepsExported(rs: seq<ConfigFile>, w: World)
    requires !w.syncing
    requires forall r | r in rs :: HasConfig(r, w.syncDir)
    ensures PreDelete(rs, w).cache == w.cache
    ensures forall k | k in w.disk && k !in UrisOf(rs) ::
      k in PreDelete(rs, w).disk && PreDelete(rs, w).disk[k] == w.disk[k]
    decreases |rs|
  {
    if |rs| > 0 {
      var w1 := PreDeleteOne(rs[0], w);
      PreDeleteOneCopies(rs[0], w);
      PreDeleteKeepsExported(rs[1..], w1);
      forall k | k in w.disk && k !in UrisOf(rs)
        ensures k in PreDelete(rs, w).disk && PreDelete(rs, w).disk[k] == w.disk[k]
      {
        assert k != rs[0].uri;
        assert k in w1.disk && w1.disk[k] == w.disk[k];
        assert forall r | r in rs[1..] :: r in rs;
        assert k !in UrisOf(rs[1..]);
      }
    }
  }

  /** Outside an import, deleting uploaded records that all have config
      snapshots leaves their tracked copies in place: only the public
      files go, and those can be recreated from the copies. */
  lemma PreDeleteKeepsConfigCopies(rs: seq<ConfigFile>, w: World)
    requires !w.syncing
    requires forall r | r in rs :: HasConfig(r, w.syncDir) && Occurs(r.uri, PublicUri)
    ensures forall r | r in rs && GetConfigUri(r) in w.disk ::
      GetConfigUri(r) in PreDelete(rs, w).disk
      && PreDelete(rs, w).disk[GetConfigUri(r)] == w.disk[GetConfigUri(r)]
  {
    PreDeleteKeepsExported(rs, w);
  }
}

=== FILE: wrappers.dfy ===
/** Optional values, standing in for PHP's `NULL` and `FALSE` returns. */
module Wrappers {

  datatype Option<+T> = None | Some(value: T)
}
